=== FILE: README.md ===
# Single-turn data-collection bookkeeping, in Dafny

This project models the bookkeeping of the IGLU single-turn crowdsourcing
tool. A builder turn starts from a saved Minecraft-like world. The tool:

- numbers new games `game-<n>` after the largest stored index;
- picks starting worlds at random from a blob listing;
- opens one HIT per turn on the crowdsourcing marketplace;
- stores the turn as a row of a keyed table;
- polls the marketplace until every HIT it opened is done. Each submitted
  assignment is collected, approved and closed, and the worker's result is
  written back into the turn's row.

Everything is modelled as immutable state threaded through pure functions:

- the table is a `map<(game id, HIT id), row>`;
- the marketplace is a sequence of HIT records, the assignments per HIT and
  the set of approvals;
- the clock is an integer `now`;
- `random.sample` is a permutation of pool positions passed in;
- the result of a table query is a list of keys. A predicate states what
  the table service promises about it: every matching row, each exactly once.

A Python exception is a `Failure` carrying the cause. Python's `None`
return is `Success(None)`.

Modules, following the program's files:

| module | file | models |
|---|---|---|
| `Common`, `Strings` | common.dfy, strings.dfy | `Option`/`Result`, row cells, `split`/`join`/`strip`/`int()` |
| `Turns` | turn.dfy | `mturk_scripts/turn.py` |
| `DatasetTurns` | dataset_turn.dfy | `SingleTurnDatasetTurn`: world paths, turn ↔ row |
| `GameStorage` | game_storage.dfy | `AzureGameStorage`: with-block, retrieve, save, upsert |
| `GameIds` | game_ids.dfy | game-id codec and the largest index |
| `StartWorlds` | start_worlds.dfy | `select_start_worlds_ids` (the same in both storages) |
| `SingleTurnStorage` | singleturn_storage.dfy | `IgluSingleTurnGameStorage` of the single-turn package |
| `HitManager` | hit_manager.dfy | `HITManager` |
| `DataCollection` | data_collection.dfy | `run_hits`: creation phase and one polling iteration |
| `IgluStorage` | iglu_storage.dfy | the older `iglu_singleturn` storage |
| `GridText` | grid_text.dfy | `break_str_to_lines` |

Where the code and its documentation disagree, the model follows the code:

- `get_open_turns` reads the last index for the default turn type
  "builder-normal", whatever turn type it is given.
- `get_open_turns` returns the integer `1` when too few worlds come back. The
  model reports this as the failure `NotATurnList`, because no caller can use
  that value as a list.
- `from_database_entry` logs `row["PartitionKey"]` before returning None, so
  a row that has neither world-path column and no partition key raises
  `KeyError`.

## Model

| member | source | states |
|---|---|---|
| Turns.NewTurn | mturk_scripts/turn.py:24-34 | A new turn keeps game id, turn type and structure id as passed and is open: no HIT id, and worker, qualification, result path and instructions all None |
| Turns.SetHitId | mturk_scripts/turn.py:36-37 | Setting the HIT id changes that attribute only; resetting it to the old value gives back the original turn |
| Turns.SetHitIdOverwrites | mturk_scripts/turn.py:36-37 | There is no set-once guard: a second call replaces the first id, and the turn looks as if only the second call happened |
| DatasetTurns.NewDatasetTurn | mturk_scripts/singleturn/singleturn_games_storage.py:45-52 | The base turn is a new open turn; the world location is kept; the screenshot view is the step followed by "_north" |
| DatasetTurns.SplitStartingWorldPath | mturk_scripts/singleturn/singleturn_games_storage.py:101-109 | None unless the path has exactly four '/'-segments; otherwise those four slash-free segments, which join back to the path |
| DatasetTurns.SplitBuiltPath | mturk_scripts/singleturn/singleturn_games_storage.py:94-109 | Building a path from a container and three slash-free components and splitting it gives back the container stripped of its surrounding slashes (so "mturk-vw/" is accepted) and the three components |
| DatasetTurns.BuildSplitPath | mturk_scripts/singleturn/singleturn_games_storage.py:94-109 | Building from the four segments of a splittable path reproduces the path |
| DatasetTurns.UpdateResultBlobPath | mturk_scripts/singleturn/singleturn_games_storage.py:111-116 | The result location becomes container/starting blob path/subpath/game id with each part stripped of slashes; no other attribute changes |
| DatasetTurns.ToRow | mturk_scripts/singleturn/singleturn_games_storage.py:118-138 | No row without a HIT id; otherwise exactly the nine columns, keyed by game id and HIT id, the turn type under HitType, the world path built from container, blob path, name and step, and every falsy result (None, "", False) written as "NA" so that every result cell is truthy |
| DatasetTurns.WorldPathOf | mturk_scripts/singleturn/singleturn_games_storage.py:60-68 | InitializedWorldPath is preferred; otherwise InitializedWorld with ".png" removed; a present cell that is not text is an error; with neither the answer is None (a KeyError if the logged partition key is missing too) |
| DatasetTurns.FromRow | mturk_scripts/singleturn/singleturn_games_storage.py:59-91 | Succeeds exactly when the world path can be read and, if there is one, it has four segments and the partition key, turn type and row key are string cells; a turn is read only from a four-segment world path; its ids and type come from the key columns; its blob path, name and step are segments 2-4; absent result columns read as "NA"; None exactly when the row has no world path |
| DatasetTurns.TurnRowTurn | mturk_scripts/singleturn/singleturn_games_storage.py:59-138 | Turn → row → turn gives back the turn, each falsy result attribute becoming "NA"; the container only needs to be slash-free once its surrounding slashes are stripped |
| DatasetTurns.RowTurnRow | mturk_scripts/singleturn/singleturn_games_storage.py:59-138 | Row → turn → row reproduces keys, turn type and world path, keeps truthy result cells and writes the others as "NA" |
| GameStorage.Enter | mturk_scripts/game_storage.py:42-52 | Entering the with-block opens a client on the same table and changes nothing else |
| GameStorage.Exit | mturk_scripts/game_storage.py:54-59 | Leaving drops the client, changes nothing else and does not suppress exceptions |
| GameStorage.With | mturk_scripts/game_storage.py:42-59 | A with-block runs its body with a client, ends without one, and raises whatever its body raised |
| GameStorage.RetrieveTurnEntity | mturk_scripts/game_storage.py:103-113 | Raises only without a client; otherwise returns a stored row whose column equals the key, and None only when no row matches |
| GameStorage.SaveNewTurn | mturk_scripts/game_storage.py:115-126 | A turn without a HIT id is skipped; a new key gets exactly the turn's row and no other row changes; an existing key leaves the table unchanged without raising |
| GameStorage.UpsertTurn | mturk_scripts/game_storage.py:128-134 | A turn without a HIT id is skipped; otherwise the turn's columns overwrite, the stored row's other columns stay (MERGE), and no other row changes |
| GameStorage.UpsertIdempotent | mturk_scripts/game_storage.py:133-134 | Upserting the same turn twice gives the same table as upserting it once |
| GameStorage.MergeAgain | mturk_scripts/game_storage.py:134 | Merging the same columns into a row a second time changes nothing |
| GameStorage.WritesKeepTableWellFormed | mturk_scripts/game_storage.py:115-134 | Both writes keep each row's PartitionKey and RowKey columns equal to its key |
| GameIds.IndexFromGameId | mturk_scripts/singleturn/singleturn_games_storage.py:176-183 | An id with a dash reads as the integer after the last dash and raises if that is not one; an id without a dash reads as its value, or 0 when it is not numeric |
| GameIds.GameIdFromGameIndex | mturk_scripts/singleturn/singleturn_games_storage.py:185-189 | A string that already contains "game-" is returned as is; any other string, and any integer printed in decimal, gets the prefix "game-" |
| GameIds.IndexOfGameId | mturk_scripts/singleturn/singleturn_games_storage.py:176-189 | For every n ≥ 0, the id built from n reads back as n |
| GameIds.GameIdFromGameIndexIdempotent | mturk_scripts/singleturn/singleturn_games_storage.py:185-189 | Building an id from a built id changes nothing |
| GameIds.GameIdInjective | mturk_scripts/singleturn/singleturn_games_storage.py:185-189 | Distinct game numbers give distinct ids |
| GameIds.MaxIndex | mturk_scripts/singleturn/singleturn_games_storage.py:165-174 | Raises exactly when some id cannot be read; otherwise 0 for no ids, else an upper bound of every index that is itself one of them |
| StartWorlds.Candidates | mturk_scripts/singleturn/singleturn_games_storage.py:218-225 | The pool holds exactly the listed names without ".png" |
| StartWorlds.CandidatesNoDuplicates | mturk_scripts/singleturn/singleturn_games_storage.py:218-225 | Filtering a listing of distinct names keeps them distinct |
| StartWorlds.Sample | mturk_scripts/singleturn/singleturn_games_storage.py:229 | Sampling raises unless 0 ≤ count ≤ pool size; otherwise count items taken at the shuffled positions |
| StartWorlds.SelectStartWorldsIds | mturk_scripts/singleturn/singleturn_games_storage.py:209-231 | Raises outside a with-block, then for a count ≤ 0, then for a count above the pool; otherwise exactly count listed names without ".png", the i-th being the candidate at the i-th sampled position, distinct when the listing is |
| SingleTurnStorage.GameIdsOf | mturk_scripts/singleturn/singleturn_games_storage.py:168-172 | The game id read from each queried row, in order |
| SingleTurnStorage.GetLastGameIndex | mturk_scripts/singleturn/singleturn_games_storage.py:149-174 | Raises outside a with-block; 0 when no row has the turn type; raises exactly when some matching id cannot be read; otherwise the largest index among the matching rows |
| SingleTurnStorage.TurnFromOpenGame | mturk_scripts/singleturn/singleturn_games_storage.py:233-252 | Raises for fewer than three segments; otherwise an open turn with blob path, blob name and step from the segments, the structure id read from the blob name, and screenshot view step + "_north" |
| SingleTurnStorage.TurnFromOpenGamePath | mturk_scripts/singleturn/singleturn_games_storage.py:236-252 | On "p/n/s", blob path p, name n, step s, view s + "_north", and structure id the second dash field of n or n itself |
| SingleTurnStorage.ConsecutiveGameIds | mturk_scripts/singleturn/singleturn_games_storage.py:268-279 | The i-th id handed out is the id of game next + i |
| SingleTurnStorage.OpenTurnsFor | mturk_scripts/singleturn/singleturn_games_storage.py:274-280 | Succeeds exactly when every world path has three segments; then the i-th turn is the open turn of the i-th world under the i-th id |
| SingleTurnStorage.GetOpenTurns | mturk_scripts/singleturn/singleturn_games_storage.py:254-280 | Succeeds exactly when the last index can be read, the worlds can be drawn and every drawn world has three segments; then count open turns of the given type, numbered consecutively after the last stored index, with pairwise distinct ids, none equal to a stored game id of the default type |
| SingleTurnStorage.OpenTurnsForAreOpen | mturk_scripts/singleturn/singleturn_games_storage.py:274-280 | Each turn built for the worlds is open and carries its own id and the requested type |
| SingleTurnStorage.NumberedFrom | mturk_scripts/singleturn/singleturn_games_storage.py:268-280 | Turns built for the ids of games last + 1, last + 2, … carry those numbers in order, with the type, and are open |
| SingleTurnStorage.NumbersAboveAreFresh | mturk_scripts/singleturn/singleturn_games_storage.py:268-280 | Turns numbered consecutively after last have pairwise distinct game ids |
| SingleTurnStorage.GameIdAbove | mturk_scripts/singleturn/singleturn_games_storage.py:176-189 | The id of a game numbered above the index read from an id differs from that id |
| SingleTurnStorage.FreshAbove | mturk_scripts/singleturn/singleturn_games_storage.py:254-280 | Turns numbered above every stored index of the type reuse none of the stored game ids |
| SingleTurnStorage.OpenTurnsAfterLast | mturk_scripts/singleturn/singleturn_games_storage.py:254-280 | The turns built after the last stored index are numbered from it, pairwise distinct, and new to the table |
| SingleTurnStorage.StructureIdOfBlobName | mturk_scripts/singleturn/singleturn_games_storage.py:242-245 | A blob name "number-structure" yields the structure part as its structure id; a name without a dash yields itself |
| SingleTurnStorage.RetrieveTurnEntity | mturk_scripts/singleturn/singleturn_games_storage.py:282-294 | Like the shared lookup, but with the qualified flag only rows whose IsHITQualified is true are returned; None means no eligible row |
| HitManager.NewManager | mturk_scripts/hit_manager.py:47-54 | The session starts empty; without a verification function every answer qualifies |
| HitManager.Qualifiers | mturk_scripts/hit_manager.py:66-79 | Empty with neither option; the custom qualification (GreaterThan, [80]) comes before the country restriction of type 00000000000000000071 |
| HitManager.CreateHit | mturk_scripts/hit_manager.py:56-97 | The marketplace gains an assignable, unreviewed HIT tagged with the type, expiring lifetime seconds after now, with those qualifiers; its id joins the session |
| HitManager.Listing | mturk_scripts/hit_manager.py:106 | One page of at most max_hits HITs, a prefix of the marketplace's listing |
| HitManager.OpenHitSet | mturk_scripts/hit_manager.py:106-119 | Raises on an unreadable annotation; otherwise exactly the session's ids plus the listed HITs of the type that are not disposed, not reviewed either way and not expired |
| HitManager.GetOpenHitIds | mturk_scripts/hit_manager.py:99-122 | The open ids, each once, exactly the members of the open set |
| HitManager.SetToSeq | mturk_scripts/hit_manager.py:119 | A list of a set holds each element exactly once |
| HitManager.OpenHitsOfTestPage | mturk_scripts/singleturn/tests/test_hit_manager.py:77-140 | Of a fresh HIT, a HIT of another type, one marked for review, an expired one and a reviewed one, exactly the first and the third are open |
| HitManager.CreatedHitIsOpen | mturk_scripts/hit_manager.py:91-119 | A created HIT is selected for its type until it expires and is reported as open whatever the marketplace lists |
| HitManager.Submitted | mturk_scripts/hit_manager.py:152-155 | The assignments of a HIT still waiting are those not approved yet |
| HitManager.RecordOf | mturk_scripts/hit_manager.py:163-166 | A record keeps the worker and answer, and its qualification is the verifier's verdict |
| HitManager.WithoutHit | mturk_scripts/hit_manager.py:191 | Deleting a HIT removes exactly the HITs with that id |
| HitManager.CloseAssignment | mturk_scripts/hit_manager.py:180-194 | The assignment is approved whatever its qualification, the HIT is deleted, and only that id leaves the session |
| HitManager.CloseIgnoresQualification | mturk_scripts/hit_manager.py:180-194 | Closing gives the same result for a qualified and an unqualified answer |
| HitManager.ProcessAssignments | mturk_scripts/hit_manager.py:159-168 | Every assignment of the HIT is approved; the record kept is the last one's; the HIT is deleted and leaves the session |
| HitManager.CompleteHit | mturk_scripts/hit_manager.py:150-168 | A HIT with nothing waiting is skipped; otherwise its last record is kept and it is closed with nothing left waiting; other HITs' waiting assignments are untouched |
| HitManager.SubmittedAfterApproval | mturk_scripts/hit_manager.py:152-155 | Once all waiting assignments of a HIT are approved, none is waiting and no other HIT's list changes |
| HitManager.CompleteFrom | mturk_scripts/hit_manager.py:148-169 | Collecting and closing never changes the submitted assignments themselves, the verifier or the page size |
| HitManager.CompleteFromKeys | mturk_scripts/hit_manager.py:148-169 | Records are added for exactly the visited HITs that had waiting assignments |
| HitManager.CompleteFromRecords | mturk_scripts/hit_manager.py:159-169 | Each such HIT's record is its last waiting assignment's; records of HITs without waiting assignments stay as they were |
| HitManager.CompleteFromCloses | mturk_scripts/hit_manager.py:161-168 | Exactly the HITs that had waiting assignments leave the session and the listing: every listed HIT of any other id stays listed |
| HitManager.CompleteFromApproves | mturk_scripts/hit_manager.py:152-168 | Those HITs have nothing left waiting; every other HIT's waiting assignments are as before |
| HitManager.CompleteFromUnchanged | mturk_scripts/hit_manager.py:150-157 | When no HIT to visit has waiting assignments, every HIT is skipped and the manager and records are left as they were |
| HitManager.CompleteOpenAssignments | mturk_scripts/hit_manager.py:128-169 | HITs with no waiting assignment are absent from the result; each entry is the last assignment's record, qualified by the verifier; every processed HIT leaves the session and the listing and has nothing waiting; every other HIT stays listed with its waiting assignments unchanged; when nothing is waiting the manager is left exactly as it was |
| DataCollection.CreateAndSave | mturk_scripts/singleturn/run_data_collection.py:77-83 | Succeeds exactly inside a with-block; the turn gets its HIT id before it is saved, so the no-HIT guard never fires; a HIT tagged with the turn type is appended and joins the session; exactly the key (game id, new HIT id) is added, holding the turn's row with that HIT id when the key was new, while an existing key and every stored row keep their contents |
| DataCollection.CreateAll | mturk_scripts/singleturn/run_data_collection.py:77-83 | With at least one turn, it succeeds exactly inside a with-block; every stored row keeps its contents; exactly the new HIT ids join the session |
| DataCollection.CreateAllStoresEveryTurn | mturk_scripts/singleturn/run_data_collection.py:77-83 | Every open turn ends with a row under its game id and the HIT id handed out for it |
| DataCollection.CreateAllRows | mturk_scripts/singleturn/run_data_collection.py:77-83 | The row under the key of the first turn saved under it, when that key was not stored before, is that turn's row with its HIT id (`to_database_entry` after `set_hit_id`); later saves under the same key do not replace it |
| DataCollection.FirstUnderTail | mturk_scripts/singleturn/run_data_collection.py:77-83 | After the first turn is saved, a later turn that was first under a new key is still first under it among the remaining turns |
| DataCollection.DistinctTurnsFirstUnder | mturk_scripts/singleturn/run_data_collection.py:77-83 | Turns with distinct game ids never share a key, so a turn whose key was not stored is the first saved under it |
| DataCollection.CreationPhase | mturk_scripts/singleturn/run_data_collection.py:69-83 | Succeeds exactly when drawing the open turns succeeds; then hitCount > 0 turns are drawn; the i-th is stored under the i-th new HIT id, and when that key was not stored before its row is the i-th turn's row with that HIT id; every stored row keeps its contents; exactly those HIT ids join the session |
| DataCollection.CreatedHitsArePolled | mturk_scripts/singleturn/run_data_collection.py:70-88 | The tag used to create the HITs is the one polled for, so every created HIT is reported open |
| DataCollection.RecordDict | mturk_scripts/hit_manager.py:163-166 | A record has exactly the keys WorkerId, Answer and IsHITQualified |
| DataCollection.Lookup | mturk_scripts/singleturn/run_data_collection.py:118-120 | A record lookup raises KeyError exactly for a missing key |
| DataCollection.InstructionOf | mturk_scripts/singleturn/run_data_collection.py:118 | The instruction is the free text of the first answer to the question with the given identifier, or "NA" when no answer has it |
| DataCollection.ApplyResultAsWritten | mturk_scripts/singleturn/run_data_collection.py:104-122 | The loop body as written: a missing entity raises at once, a row that cannot be read raises the reading error, a row without a world path raises on the missing method |
| DataCollection.AsWrittenResultNeverSaved | mturk_scripts/singleturn/run_data_collection.py:104-122 | As written, writing back a result always raises: a missing entity is not skipped, and the instruction key is absent from every record |
| DataCollection.ApplyResult | mturk_scripts/singleturn/run_data_collection.py:104-122 | A missing entity is skipped, and so is a row without a world path (see Findings); a row that does not read as a turn raises; otherwise the reloaded turn gets result path, instruction, qualification and worker and is upserted under its own key, no other row changing |
| DataCollection.ApplyResultKeepsKeys | mturk_scripts/singleturn/run_data_collection.py:106-122 | Writing back a row read from the table keeps the table's keys and well-formedness |
| DataCollection.ApplyResultWritesOwnRow | mturk_scripts/singleturn/run_data_collection.py:106-122 | Writing back the row stored under a key touches no other row; it succeeds only if the row reads as a turn, leaves the storage unchanged for a row without a world path, and otherwise the row holds the record |
| DataCollection.ApplyResultSucceeds | mturk_scripts/singleturn/run_data_collection.py:106-122 | While a HIT is not yet handled, its lookup finds one of the rows the table started with, so when those rows read as turns and a client is open its write-back cannot raise |
| DataCollection.SaveStep | mturk_scripts/singleturn/run_data_collection.py:104-122 | One iteration of the result loop keeps the rows of the HITs not yet handled as they were, keeps the results already written, and writes the current HIT's result into its only row |
| DataCollection.SaveStepNoRow | mturk_scripts/singleturn/run_data_collection.py:106-108 | A HIT whose row is not found has no row at all, so skipping it writes nothing and leaves nothing of it unwritten |
| DataCollection.SaveStepOwnRow | mturk_scripts/singleturn/run_data_collection.py:106-122 | When the HIT's row is found, only that row changes, and if it is the HIT's only row it holds the HIT's record |
| DataCollection.CallOnStorage | mturk_scripts/singleturn/run_data_collection.py:88 | A call on the storage object raises unless the storage defines that method |
| DataCollection.PollStepAsWritten | mturk_scripts/singleturn/run_data_collection.py:86-92 | As written, the polling iteration raises at once: it asks the storage for the open HITs |
| DataCollection.OpenHitsQueryOnlyOnManager | mturk_scripts/singleturn/run_data_collection.py:88 | get_open_hit_ids is defined by the HIT manager and not by the storage, so every polling iteration as written fails |
| DataCollection.SaveResults | mturk_scripts/singleturn/run_data_collection.py:104-123 | Writing back every collected record keeps the table's keys and well-formedness, and raises outside a with-block when there is a record; rows of HITs without a record are unchanged; the only row of each HIT with a record must read as a turn, and then holds that HIT's worker id, qualification, instruction and action-data path (or is unchanged when it has no world path); it succeeds whenever a client is open (or there is no record) and every stored row of a HIT with a record reads as a turn |
| DataCollection.LastRecords | mturk_scripts/hit_manager.py:148-169 | The records the HIT manager keeps: one for each given HIT with waiting assignments, that of its last assignment |
| DataCollection.CollectedRecords | mturk_scripts/hit_manager.py:128-169 | Whatever order the open HITs are listed in, the records collected are those of the open HITs with waiting assignments, each its last assignment's |
| DataCollection.PollStep | mturk_scripts/singleturn/run_data_collection.py:86-123 | The loop ends exactly when no HIT is open; it waits, writing nothing and leaving the manager as it was, exactly when HITs are open but none has a waiting assignment; otherwise it saves exactly the open HITs with waiting assignments: their assignments are all approved (none left waiting), they leave the session and the listing while every other HIT stays listed with its waiting assignments unchanged, and each such HIT's only row holds the record of its last assignment while rows of other HITs are unchanged. When the open HITs can be listed, it ends or waits without fail, and it saves without fail when a client is open and every stored row of an open HIT with a waiting assignment reads as a turn |
| IgluStorage.NewIgluTurn | mturk_scripts/iglu_singleturn/singleturn_games_storage.py:14-25 | The older turn keeps its six arguments; its type stays None and its open HITs empty |
| IgluStorage.GetOpenTurn | mturk_scripts/iglu_singleturn/singleturn_games_storage.py:149-159 | Raises for fewer than three segments; otherwise data path, game blob and step from the segments, screenshot view step + "_north" |
| IgluStorage.GetOpenTurnOfPath | mturk_scripts/iglu_singleturn/singleturn_games_storage.py:149-159 | On "a/b/c", data path a, game blob b, step c and view c + "_north" |
| IgluStorage.IgluIndex | mturk_scripts/iglu_singleturn/singleturn_games_storage.py:104 | With a dash, the second dash field as an integer; without one, the whole id; no fallback to 0 |
| IgluStorage.IgluIndexAgrees | mturk_scripts/iglu_singleturn/singleturn_games_storage.py:104 | On ids game-n both storages read n |
| IgluStorage.IgluIndexDiffersOnTwoDashes | mturk_scripts/iglu_singleturn/singleturn_games_storage.py:104 | On "game-1-2" the older storage reads 1 and the newer reads 2 |
| IgluStorage.IgluIndexDiffersWithoutDash | mturk_scripts/iglu_singleturn/singleturn_games_storage.py:104 | On "game" the older storage raises and the newer reads 0 |
| IgluStorage.GetLastGameIndexAsWritten | mturk_scripts/iglu_singleturn/singleturn_games_storage.py:81-106 | As written there is no guard: outside a with-block the missing client's lookup raises |
| IgluStorage.AsWrittenRaisesWrongErrorOutsideWith | mturk_scripts/iglu_singleturn/tests/test_singleturn_game_storage.py:113-120 | Outside a with-block the written code does not raise the "used outside a with statement" error its test expects |
| IgluStorage.GetLastGameIndex | mturk_scripts/iglu_singleturn/singleturn_games_storage.py:81-106 | Raises the context error outside a with-block; 0 for no builder-normal rows; raises exactly when an id cannot be read; otherwise the largest index |
| IgluStorage.WithPropagatesRaise | mturk_scripts/iglu_singleturn/singleturn_games_storage.py:60-72 | Inside the block there is a client; an exception raised in the block escapes it, and the client is gone afterwards |
| GridText.BreakStrToLines | utils/grid_visualization.py:42-51 | The lines concatenate to the input and are joined with newlines; there is at least one line; every line but the last is longer than the limit; every later line starts with the breaking space; a space past index 0 lies within the limit; text without spaces is returned unchanged |
| GridText.BreakLines | utils/grid_visualization.py:43-50 | The loop keeps the shape of the lines and their concatenation equal to the text read so far |
| GridText.BreakStep | utils/grid_visualization.py:46-49 | A break at a space, once the line is longer than the limit, starts a line holding just that space |
| GridText.AppendStep | utils/grid_visualization.py:45-49 | Any other character extends the current line |
| GridText.JoinLines | utils/grid_visualization.py:51 | Splitting the joined output at newlines gives the lines back when the text has no newline |
| Strings.Split | mturk_scripts/singleturn/singleturn_games_storage.py:104 | Splitting always gives at least one part, no part holds the separator, and there are two or more exactly when the separator occurs |
| Strings.JoinSplit | mturk_scripts/singleturn/singleturn_games_storage.py:104-109 | Joining the parts of a split gives the text back |
| Strings.SplitJoin | mturk_scripts/singleturn/singleturn_games_storage.py:94-109 | Splitting a join of separator-free parts gives the parts back |
| Strings.Strip | mturk_scripts/singleturn/singleturn_games_storage.py:97 | The stripped text is no longer than the input, neither starts nor ends with the character, and is the input itself when the character is absent |
| Strings.StripCutsOnlyEnds | mturk_scripts/singleturn/singleturn_games_storage.py:97 | Only the two end runs are cut: the stripped text is a slice of the input and everything outside the slice is the character (so "a/b" keeps its inner slash and a text of slashes only becomes empty) |
| Strings.RemovePng | mturk_scripts/singleturn/singleturn_games_storage.py:64 | A name without ".png" is unchanged and the result is never longer than the input |
| Strings.RemovePngSuffix | mturk_scripts/singleturn/singleturn_games_storage.py:64 | A screenshot name `<name>.png`, where the name holds no ".png", becomes exactly `<name>` |
| Strings.ParseNat | mturk_scripts/singleturn/singleturn_games_storage.py:181 | Parsing succeeds exactly on non-empty decimal digit strings, and the value is their decimal value |
| Strings.ParseNatToString | mturk_scripts/singleturn/singleturn_games_storage.py:179-189 | Printing a number and parsing it back gives the number |
| Common.OrNA | mturk_scripts/singleturn/singleturn_games_storage.py:131-136 | `v or "NA"` keeps a truthy v and turns every falsy v (None, "", False) into "NA" |
| Common.GetString | mturk_scripts/singleturn/singleturn_games_storage.py:74-81 | A column read as a string raises when the column is missing or not a string |

## Left out

- The marketplace and table SDK calls are not modelled: client construction, request parameters (reward, title, durations), pagination tokens, and `create_table_if_not_exists`. Their effects are state or inputs of the model.
- Service errors raised by the SDKs are not modelled. This covers the `ResourceExistsError` catches as service behaviour, and `list_assignments_for_hit` or `delete_hit` on an unknown HIT. Only the outcomes the code itself distinguishes are modelled.
- XML parsing of answers (`xmltodict`) is left out; an answer is a list of (question identifier, free text) fields.
- Template rendering, `render_template_from_turn` and the HTML templates are left out. The question identifier of the instruction field is defined by the template, so it is the parameter `questionId` of DataCollection.InstructionOf, DataCollection.ApplyResult, DataCollection.SaveResults and DataCollection.PollStep.
- Logging, `time.sleep`, argument parsing and `main` are left out.
- `plot_grid` (matplotlib rendering) is left out.
- The iglu package's run script is left out: a placeholder loop.
- The with-block's SDK `__enter__`/`__exit__` of the table client is left out; only the presence of the client is modelled.
- The uniformity of `random.sample` is not modelled; any shuffle of the pool positions is allowed.
- `now` stands for `datetime.datetime.now().timestamp()`; expirations are integer seconds, not floats.
- Strings.ParseNat: Python's `int()` also accepts surrounding whitespace, a sign and underscores. The model accepts only non-empty decimal digit strings, and every other text is the `ValueError`.
- GameIds.GameIdFromGameIndex: a value that is neither an integer nor a string is not modelled.
- DatasetTurns.FromRow: the partition key, row key and turn type must be string cells. A non-string cell is reported as `NotAString`, where Python would carry the value along.
- SingleTurnStorage.GetOpenTurns: the per-turn contract states game id, turn type and openness. The world fields of each turn are stated by SingleTurnStorage.OpenTurnsFor and SingleTurnStorage.TurnFromOpenGame instead of being repeated.
- GameStorage.RetrieveTurnEntity: which of several matching rows the service returns first is left open.
- SingleTurnStorage.RetrieveTurnEntity: the qualified filter is built as `"... eq '<key>'and IsHITQualified eq true"`, with no space before `and`. The model gives it its intended meaning (only qualified rows) instead of following the text, because how the table service parses that filter is not part of this model. The polling loop passes no qualified flag, so the write-back does not depend on it.
- HitManager.GetOpenHitIds: the order of the returned list (Python set iteration order) is left open.
- DataCollection.SaveResults: the order in which completed HITs are written back is left open. The per-row outcome does not depend on it, but the contract states the outcome only for a HIT with exactly one stored row; when several rows carry the same HIT id, which of them the lookup finds is left open.
- DataCollection.SaveResults: when the write-back raises part-way, the rows already written stay written in the real table; the model returns only the failure.
- DataCollection.PollStep: when the write-back raises, the model returns only the failure and drops the updated manager. In the real program `complete_open_assignments` has already approved the assignments and deleted their HITs (mturk_scripts/hit_manager.py:161-168), and those marketplace effects stay.
- DataCollection.CreationPhase: the drawn game ids are fresh only against stored rows of the default turn type, the only rows `get_last_game_index` reads. So the row contents are promised for every key that was not stored before. A key already stored keeps its old row, as the caught `ResourceExistsError` does (mturk_scripts/game_storage.py:122-126).
- HitManager.Listing: only the first page of `list_hits` is read, as in the source, so HITs beyond `max_hits` are never selected.

## Findings

| source | as written | input that shows it | evidently intended | confidence | as-written member | corrected member |
|---|---|---|---|---|---|---|
| mturk_scripts/singleturn/run_data_collection.py:88 | `game_storage.get_open_hit_ids(hit_type=turn_type)`; the storage defines no such method | any first polling iteration | `hit_manager.get_open_hit_ids(...)` | not executed | DataCollection.PollStepAsWritten, DataCollection.OpenHitsQueryOnlyOnManager | DataCollection.PollStep |
| mturk_scripts/singleturn/run_data_collection.py:118 | reads `assignment_answers['InputInstruction']`; records only have WorkerId, Answer, IsHITQualified (mturk_scripts/hit_manager.py:163-166) | any completed assignment whose turn row is found | take the instruction from the parsed answer | not executed | DataCollection.ApplyResultAsWritten, DataCollection.AsWrittenResultNeverSaved | DataCollection.ApplyResult |
| mturk_scripts/singleturn/run_data_collection.py:107-110 | a missing entity is logged but not skipped; `from_database_entry(None)` raises on `'InitializedWorldPath' in None` | a completed HIT with no stored row | `continue` after the log | not executed | DataCollection.ApplyResultAsWritten, DataCollection.AsWrittenResultNeverSaved | DataCollection.ApplyResult |
| mturk_scripts/singleturn/run_data_collection.py:110-113 | `from_database_entry` logs an error and returns None for a row with neither `InitializedWorldPath` nor `InitializedWorld` (mturk_scripts/singleturn/singleturn_games_storage.py:60-68), and the loop then calls `update_result_blob_path` on None, an AttributeError | a completed HIT whose stored row has no world column | skip that row after the logged error, as for a missing entity | not executed | DataCollection.ApplyResultAsWritten | DataCollection.ApplyResult |
| mturk_scripts/iglu_singleturn/singleturn_games_storage.py:81-106 | no `table_client is None` guard, so outside a with-block the lookup on None raises AttributeError; its test (mturk_scripts/iglu_singleturn/tests/test_singleturn_game_storage.py:113-120) expects ValueError | `get_last_game_index()` on a storage never entered | raise the "used outside a with statement" ValueError first, as `select_start_worlds_ids` does | not executed | IgluStorage.GetLastGameIndexAsWritten, IgluStorage.AsWrittenRaisesWrongErrorOutsideWith | IgluStorage.GetLastGameIndex |

=== FILE: common.dfy ===
/** Shared vocabulary of the model: optional values, results that carry the
    exception a Python call would raise, and the heterogeneous cell values
    of a table row. */
module Common {

  /** Python's `None` versus a present value. */
  datatype Option<+T> = None | Some(value: T) {
    function GetOr(default: T): T {
      match this
      case Some(v) => v
      case None => default
    }
  }

  /** The exceptions the modelled code raises (or lets escape from the
      libraries it calls), one constructor per cause. */
  datatype Error =
    | KeyError(key: string)           // a dict lookup of a missing key
    | IndexError                      // a list index past the end
    | NotAnInteger(text: string)      // `int(text)` rejected its argument
    | OutsideContext                  // the explicit "used outside a with statement" ValueError
    | NonPositiveCount                // the explicit "games count is less than 1" ValueError
    | SampleLargerThanPopulation      // `random.sample` asked for more items than it has
    | NoTableClient                   // an attribute lookup on a `table_client` that is None
    | NotUnpackable                   // unpacking `None` into four names
    | NotAString(column: string)      // a string operation applied to a non-string cell
    | NoSuchMethod(name: string)      // calling a method the receiver does not define
    | NotAContainer                   // `key in None`
    | NotATurnList                    // `len(1)`
    | UnreadableAnnotation            // a RequesterAnnotation that is not JSON with `hit_type`

  /** A result that either carries a value or the exception raised instead. */
  datatype Result<+R> = Success(value: R) | Failure(error: Error) {
    predicate IsFailure() {
      Failure?
    }

    function PropagateFailure<U>(): Result<U>
      requires Failure?
    {
      Failure(error)
    }

    function Extract(): R
      requires Success?
    {
      value
    }
  }

  /** A cell of a table row, or a loosely typed attribute of a turn:
      a string, a boolean, or Python's `None`. */
  datatype Value = Str(s: string) | Bool(b: bool) | Null

  /** Python truthiness of a cell value. */
  predicate Truthy(v: Value) {
    match v
    case Str(s) => |s| > 0
    case Bool(b) => b
    case Null => false
  }

  /** The sentinel written for results that are not available yet. */
  const NA: Value := Str("NA")

  /** `v or "NA"`: falsy values (None, "", False) become the sentinel. */
  function OrNA(v: Value): (r: Value)
    ensures Truthy(r)
    ensures Truthy(v) ==> r == v
    ensures !Truthy(v) ==> r == NA
  {
    if Truthy(v) then v else NA
  }

  /** A table row, as the table SDK hands it over: column name to cell. */
  type Row = map<string, Value>

  /** `row.get(column, default)`. */
  function Get(row: Row, column: string, default: Value): Value {
    if column in row then row[column] else default
  }

  /** `row[column]` where the code then uses the cell as a string. */
  function GetString(row: Row, column: string): (r: Result<string>)
    ensures r.Success? <==> column in row && row[column].Str?
    ensures r.Success? ==> row[column] == Str(r.value)
  {
    if column !in row then Failure(KeyError(column))
    else if !row[column].Str? then Failure(NotAString(column))
    else Success(row[column].s)
  }

  /** No element occurs twice. */
  predicate NoDuplicates<T(==)>(xs: seq<T>) {
    forall i, j :: 0 <= i < j < |xs| ==> xs[i] != xs[j]
  }
}

=== FILE: data_collection.dfy ===
/** The data-collection run of the single-turn builder task: a creation
    phase that opens one HIT per new turn and stores the turn, then a
    polling loop that collects the submitted assignments and writes each
    worker's result back into the turn's row. One iteration of the loop is
    modelled as a transition of (storage, HIT manager). */
module DataCollection {
  import opened Common
  import opened Strings
  import opened Turns
  import opened DatasetTurns
  import opened GameStorage
  import opened StartWorlds
  import opened GameIds
  import opened SingleTurnStorage
  import opened HitManager

  /** The tag used both to create the HITs and to look for open ones. */
  const TurnType := "builder-normal"

  /** The blob sub-path under which the builders' action data is stored. */
  const ActionSubpath := "actionHit"

  // ---------------------------------------------------------------------
  // Creation phase

  /** One iteration of the creation loop: a HIT tagged with the turn type
      is created, its id is attached to the turn, and the turn is saved. */
  function CreateAndSave(st: Storage, m: Manager, t: DatasetTurn, now: int, lifetime: int, newId: string,
                         qualificationTypeId: Option<string>, countries: Option<seq<string>>)
    : (r: Result<(Storage, Manager, SaveOutcome)>)
    ensures r.Success? <==> st.hasTableClient
    ensures r.Success? ==> r.value.2 != SkippedNoHit
    ensures r.Success? ==> (t.base.gameId, newId) in r.value.0.table
    ensures r.Success? ==> st.table.Keys <= r.value.0.table.Keys
    ensures r.Success? ==> r.value.0.hasTableClient == st.hasTableClient && r.value.0.containerName == st.containerName
    ensures r.Success? ==> r.value.1.sessionOpenHits == m.sessionOpenHits + {newId}
    ensures r.Success? ==> |r.value.1.market.hits| > 0 && Last(r.value.1.market.hits).annotation == Tagged(TurnType)
    ensures r.Success? ==> Grows(st, r.value.0) && r.value.0.table.Keys == st.table.Keys + {(t.base.gameId, newId)}
    ensures r.Success? && (t.base.gameId, newId) !in st.table ==>
              r.value.2 == Inserted && r.value.0.table[(t.base.gameId, newId)] == NewRow(t, newId, st.containerName)
    ensures r.Success? && (t.base.gameId, newId) in st.table ==> r.value.0 == st && r.value.2 == AlreadyExists
  {
    var (m1, hitId) := CreateHit(m, TurnType, lifetime, now, newId, qualificationTypeId, countries);
    var withHit := t.(base := SetHitId(t.base, hitId));
    var (st1, outcome) :- SaveNewTurn(st, withHit);
    Success((st1, m1, outcome))
  }

  /** The row `save_new_turn` inserts for `t` once the HIT `id` is
      attached to it. */
  function NewRow(t: DatasetTurn, id: string, container: string): (row: Row)
    ensures ToRow(t.(base := SetHitId(t.base, id)), container) == Some(row)
    ensures row[PartitionKey] == Str(t.base.gameId) && row[RowKey] == Str(id)
  {
    ToRow(t.(base := SetHitId(t.base, id)), container).value
  }

  /** `st1` keeps every row of `st` as it was, the table client and the
      container. */
  predicate Grows(st: Storage, st1: Storage) {
    && st.table.Keys <= st1.table.Keys
    && (forall k :: k in st.table ==> st1.table[k] == st.table[k])
    && st1.hasTableClient == st.hasTableClient && st1.containerName == st.containerName
  }

  /** The creation loop over the open turns, the i-th turn getting the
      i-th id the marketplace hands out. Every new HIT is open in the
      session, and the storage only grows. */
  function CreateAll(st: Storage, m: Manager, turns: seq<DatasetTurn>, now: int, lifetime: int, newIds: seq<string>,
                     qualificationTypeId: Option<string>, countries: Option<seq<string>>)
    : (r: Result<(Storage, Manager)>)
    requires |newIds| == |turns|
    ensures |turns| > 0 ==> (r.Success? <==> st.hasTableClient)
    ensures r.Success? ==> Grows(st, r.value.0)
    ensures r.Success? ==> r.value.1.sessionOpenHits == m.sessionOpenHits + set id | id in newIds
    decreases |turns|
  {
    if |turns| == 0 then Success((st, m))
    else
      var saved :- CreateAndSave(st, m, turns[0], now, lifetime, newIds[0], qualificationTypeId, countries);
      var rest := CreateAll(saved.0, saved.1, turns[1..], now, lifetime, newIds[1..], qualificationTypeId, countries);
      assert (set id | id in newIds) == {newIds[0]} + set id | id in newIds[1..];
      rest
  }

  /** The key the creation loop saves the i-th turn under. */
  function CreatedKey(turns: seq<DatasetTurn>, newIds: seq<string>, i: nat): Key
    requires i < |turns| && |newIds| == |turns|
  {
    (turns[i].base.gameId, newIds[i])
  }

  /** The i-th turn's key is neither stored already nor the key of an
      earlier turn, so the insert of the i-th turn is the one that lands. */
  ghost predicate FirstUnder(st: Storage, turns: seq<DatasetTurn>, newIds: seq<string>, i: nat)
    requires i < |turns| && |newIds| == |turns|
  {
    && CreatedKey(turns, newIds, i) !in st.table
    && forall j :: 0 <= j < i ==> CreatedKey(turns, newIds, j) != CreatedKey(turns, newIds, i)
  }

  /** Every turn of the creation loop ends up with a stored row under
      (game id, HIT id). */
  lemma {:induction false} CreateAllStoresEveryTurn(st: Storage, m: Manager, turns: seq<DatasetTurn>, now: int,
                                                    lifetime: int, newIds: seq<string>,
                                                    qualificationTypeId: Option<string>, countries: Option<seq<string>>)
    requires |newIds| == |turns|
    ensures var r := CreateAll(st, m, turns, now, lifetime, newIds, qualificationTypeId, countries);
            r.Success? ==> forall i :: 0 <= i < |turns| ==> (turns[i].base.gameId, newIds[i]) in r.value.0.table
    decreases |turns|
  {
    var r := CreateAll(st, m, turns, now, lifetime, newIds, qualificationTypeId, countries);
    if |turns| > 0 && r.Success? {
      var saved := CreateAndSave(st, m, turns[0], now, lifetime, newIds[0], qualificationTypeId, countries).value;
      var rest := CreateAll(saved.0, saved.1, turns[1..], now, lifetime, newIds[1..], qualificationTypeId, countries);
      assert r == rest;
      CreateAllStoresEveryTurn(saved.0, saved.1, turns[1..], now, lifetime, newIds[1..], qualificationTypeId, countries);
      forall i | 0 <= i < |turns|
        ensures (turns[i].base.gameId, newIds[i]) in r.value.0.table
      {
        if i > 0 {
          assert turns[i] == turns[1..][i - 1] && newIds[i] == newIds[1..][i - 1];
        }
      }
    }
  }

  /** The row stored under the key of the first turn saved under it, when
      that key was not stored before, is that turn's row with its HIT id;
      later saves under the same key leave it alone. */
  lemma {:induction false} CreateAllRows(st: Storage, m: Manager, turns: seq<DatasetTurn>, now: int,
                                         lifetime: int, newIds: seq<string>,
                                         qualificationTypeId: Option<string>, countries: Option<seq<string>>)
    requires |newIds| == |turns|
    ensures var r := CreateAll(st, m, turns, now, lifetime, newIds, qualificationTypeId, countries);
            r.Success? ==> forall i :: 0 <= i < |turns| && FirstUnder(st, turns, newIds, i) ==>
              CreatedKey(turns, newIds, i) in r.value.0.table
              && r.value.0.table[CreatedKey(turns, newIds, i)] == NewRow(turns[i], newIds[i], st.containerName)
    decreases |turns|
  {
    var r := CreateAll(st, m, turns, now, lifetime, newIds, qualificationTypeId, countries);
    if |turns| > 0 && r.Success? {
      var saved := CreateAndSave(st, m, turns[0], now, lifetime, newIds[0], qualificationTypeId, countries).value;
      assert r == CreateAll(saved.0, saved.1, turns[1..], now, lifetime, newIds[1..], qualificationTypeId, countries);
      CreateAllRows(saved.0, saved.1, turns[1..], now, lifetime, newIds[1..], qualificationTypeId, countries);
      forall i | 0 <= i < |turns| && FirstUnder(st, turns, newIds, i)
        ensures CreatedKey(turns, newIds, i) in r.value.0.table
                && r.value.0.table[CreatedKey(turns, newIds, i)] == NewRow(turns[i], newIds[i], st.containerName)
      {
        if i > 0 {
          FirstUnderTail(st, saved.0, turns, newIds, i);
        }
      }
    }
  }

  /** Once the first turn is saved, a later turn that was first under its
      key is still first under it among the remaining turns. */
  lemma FirstUnderTail(st: Storage, st1: Storage, turns: seq<DatasetTurn>, newIds: seq<string>, i: nat)
    requires 0 < i < |turns| && |newIds| == |turns|
    requires st1.table.Keys == st.table.Keys + {CreatedKey(turns, newIds, 0)}
    requires FirstUnder(st, turns, newIds, i)
    ensures CreatedKey(turns[1..], newIds[1..], i - 1) == CreatedKey(turns, newIds, i)
    ensures FirstUnder(st1, turns[1..], newIds[1..], i - 1)
  {
    assert CreatedKey(turns, newIds, 0) != CreatedKey(turns, newIds, i);
    forall j | 0 <= j < i - 1
      ensures CreatedKey(turns[1..], newIds[1..], j) != CreatedKey(turns[1..], newIds[1..], i - 1)
    {
      assert CreatedKey(turns[1..], newIds[1..], j) == CreatedKey(turns, newIds, j + 1);
    }
  }

  /** Turns with distinct game ids never share a key, so each turn whose
      key was not stored before is the first saved under it. */
  lemma DistinctTurnsFirstUnder(st: Storage, turns: seq<DatasetTurn>, ids: seq<string>, i: nat)
    requires |ids| == |turns| && i < |turns| && DistinctGameIds(turns)
    requires CreatedKey(turns, ids, i) !in st.table
    ensures FirstUnder(st, turns, ids, i)
  {
  }

  /** The creation phase of `run_hits`, inside the storage's with-block:
      `hitCount` open turns are drawn and a HIT is created and saved for
      each, the i-th turn under the i-th HIT id. */
  function CreationPhase(st: Storage, m: Manager, hitCount: int, blobs: seq<string>, shuffle: seq<nat>,
                         answer: seq<Key>, now: int, lifetime: int, newIds: seq<string>,
                         qualificationTypeId: Option<string>, countries: Option<seq<string>>)
    : (r: Result<(Storage, Manager)>)
    requires IsQueryAnswer(st.table, HitType, DefaultTurnType, answer)
    requires IsShuffle(shuffle, |Candidates(blobs)|)
    requires hitCount <= |newIds|
    ensures r.Success? <==> GetOpenTurns(st, TurnType, hitCount, blobs, shuffle, answer).Success?
    ensures r.Success? ==> 0 < hitCount
    ensures r.Success? ==>
              var turns := GetOpenTurns(st, TurnType, hitCount, blobs, shuffle, answer).value;
              forall i :: 0 <= i < hitCount ==> (turns[i].base.gameId, newIds[i]) in r.value.0.table
    ensures r.Success? ==>
              var turns := GetOpenTurns(st, TurnType, hitCount, blobs, shuffle, answer).value;
              forall i :: 0 <= i < hitCount && (turns[i].base.gameId, newIds[i]) !in st.table ==>
                r.value.0.table[(turns[i].base.gameId, newIds[i])] == NewRow(turns[i], newIds[i], st.containerName)
    ensures r.Success? ==> Grows(st, r.value.0)
    ensures r.Success? ==> r.value.1.sessionOpenHits == m.sessionOpenHits + set id | id in newIds[..hitCount]
  {
    var turns :- GetOpenTurns(st, TurnType, hitCount, blobs, shuffle, answer);
    var ids := newIds[..hitCount];
    CreateAllStoresEveryTurn(st, m, turns, now, lifetime, ids, qualificationTypeId, countries);
    CreateAllRows(st, m, turns, now, lifetime, ids, qualificationTypeId, countries);
    forall i | 0 <= i < hitCount && (turns[i].base.gameId, newIds[i]) !in st.table
      ensures FirstUnder(st, turns, ids, i) && ids[i] == newIds[i]
    {
      DistinctTurnsFirstUnder(st, turns, ids, i);
    }
    CreateAll(st, m, turns, now, lifetime, ids, qualificationTypeId, countries)
  }

  /** Every HIT opened by the creation phase is reported by the polling
      query for the same tag, whatever the marketplace lists. */
  lemma CreatedHitsArePolled(st: Storage, m: Manager, hitCount: int, blobs: seq<string>, shuffle: seq<nat>,
                             answer: seq<Key>, now: int, lifetime: int, newIds: seq<string>,
                             qualificationTypeId: Option<string>, countries: Option<seq<string>>, later: int)
    requires IsQueryAnswer(st.table, HitType, DefaultTurnType, answer)
    requires IsShuffle(shuffle, |Candidates(blobs)|)
    requires hitCount <= |newIds|
    ensures var r := CreationPhase(st, m, hitCount, blobs, shuffle, answer, now, lifetime, newIds,
                                   qualificationTypeId, countries);
            r.Success? ==>
              var open := OpenHitSet(Listing(r.value.1), TurnType, later, r.value.1.sessionOpenHits);
              open.Success? ==> forall i :: 0 <= i < hitCount ==> newIds[i] in open.value
  {
  }

  // ---------------------------------------------------------------------
  // Writing one result back

  /** What `complete_open_assignments` puts in each record: its keys. */
  const RecordKeys: set<string> := {"WorkerId", "Answer", "IsHITQualified"}

  /** The dictionary a record stands for, keyed as the HIT manager keys
      it. */
  datatype RecordValue = WorkerIdValue(workerId: string) | AnswerValue(answer: seq<AnswerField>) | QualifiedValue(q: bool)

  function RecordDict(rec: AnswerRecord): (d: map<string, RecordValue>)
    ensures d.Keys == RecordKeys
  {
    map["WorkerId" := WorkerIdValue(rec.workerId), "Answer" := AnswerValue(rec.answer),
        "IsHITQualified" := QualifiedValue(rec.isQualified)]
  }

  /** `d[key]`. */
  function Lookup(d: map<string, RecordValue>, key: string): (r: Result<RecordValue>)
    ensures r.Success? <==> key in d
    ensures r.Success? ==> r.value == d[key]
  {
    if key in d then Success(d[key]) else Failure(KeyError(key))
  }

  /** An answer to the instruction question of the HIT form. The form's
      question identifier lives in the HTML template, so it is a parameter
      (`questionId`) throughout. */
  predicate IsInstruction(f: AnswerField, questionId: string) {
    f.questionIdentifier == questionId
  }

  /** The instruction a builder typed: the free text of the first answer
      to the instruction question, or "NA" when there is none. */
  function InstructionOf(answer: seq<AnswerField>, questionId: string): (v: Value)
    ensures (forall i :: 0 <= i < |answer| ==> !IsInstruction(answer[i], questionId)) ==> v == NA
    ensures (exists i :: 0 <= i < |answer| && IsInstruction(answer[i], questionId)) ==>
              exists i :: && 0 <= i < |answer| && IsInstruction(answer[i], questionId)
                          && (forall j :: 0 <= j < i ==> !IsInstruction(answer[j], questionId))
                          && v == Str(answer[i].freeText)
  {
    if |answer| == 0 then NA
    else if IsInstruction(answer[0], questionId) then Str(answer[0].freeText)
    else
      var rest := InstructionOf(answer[1..], questionId);
      assert forall i :: 1 <= i < |answer| ==> answer[i] == answer[1..][i - 1];
      if exists i :: 0 <= i < |answer| && IsInstruction(answer[i], questionId) then
        var i :| 0 <= i < |answer| && IsInstruction(answer[i], questionId);
        assert IsInstruction(answer[1..][i - 1], questionId);
        var j :| && 0 <= j < |answer[1..]| && IsInstruction(answer[1..][j], questionId)
                 && (forall j' :: 0 <= j' < j ==> !IsInstruction(answer[1..][j'], questionId))
                 && rest == Str(answer[1..][j].freeText);
        assert forall j' :: 0 <= j' < j + 1 ==> !IsInstruction(answer[j'], questionId) by {
          forall j' | 0 <= j' < j + 1 ensures !IsInstruction(answer[j'], questionId) {
            if j' > 0 { assert answer[j'] == answer[1..][j' - 1]; }
          }
        }
        rest
      else
        rest
  }

  /** The body of the result loop as written: the entity is read without a
      None check, the turn read from it is used without a None check, and
      the instruction is read from a record key that the HIT manager never
      sets. */
  function ApplyResultAsWritten(st: Storage, rec: AnswerRecord, entity: Option<Row>, resultContainer: string)
    : (r: Result<Storage>)
    ensures entity.None? ==> r == Failure(NotAContainer)
    ensures entity.Some? && FromRow(entity.value).Failure? ==> r == Failure(FromRow(entity.value).error)
    ensures entity.Some? && FromRow(entity.value) == Success(None) ==>
              r == Failure(NoSuchMethod("update_result_blob_path"))
  {
    // `'InitializedWorldPath' in None` raises before anything is written
    if entity.None? then Failure(NotAContainer)
    else
      var t :- FromRow(entity.value);
      if t.None? then Failure(NoSuchMethod("update_result_blob_path"))
      else
        var t1 := UpdateResultBlobPath(t.value, resultContainer, ActionSubpath);
        var instruction :- Lookup(RecordDict(rec), InputInstruction);
        var t2 := t1.(base := t1.base.(
          // the record's value itself; never reached, the lookup above raises
          inputInstructions := Null,
          isQualified := Bool(rec.isQualified),
          workerId := Str(rec.workerId)));
        UpsertTurn(st, t2)
  }

  /** The written result loop never saves anything: a missing entity
      raises instead of being skipped, and every other entity reaches the
      lookup of "InputInstruction", which raises. */
  lemma AsWrittenResultNeverSaved(st: Storage, rec: AnswerRecord, entity: Option<Row>, resultContainer: string)
    ensures ApplyResultAsWritten(st, rec, entity, resultContainer).Failure?
    ensures entity.None? ==> ApplyResultAsWritten(st, rec, entity, resultContainer) == Failure(NotAContainer)
    ensures entity.Some? && FromRow(entity.value).Success? && FromRow(entity.value).value.Some? ==>
              ApplyResultAsWritten(st, rec, entity, resultContainer) == Failure(KeyError(InputInstruction))
  {
    assert InputInstruction !in RecordDict(rec);
  }

  /** The body of the result loop as intended: a HIT without a stored turn
      is skipped, and so is a row without a world path, which
      `from_database_entry` reports as None; otherwise the turn read from
      its row gets the result location, the instruction, the qualification
      and the worker id, and is upserted under the key it was read from. */
  function ApplyResult(st: Storage, rec: AnswerRecord, entity: Option<Row>, resultContainer: string,
                       questionId: string)
    : (r: Result<Storage>)
    ensures entity.None? ==> r == Success(st)
    ensures entity.Some? && FromRow(entity.value).Failure? ==> r.Failure?
    ensures entity.Some? && FromRow(entity.value) == Success(None) ==> r == Success(st)
    ensures r.Success? ==> r.value.hasTableClient == st.hasTableClient && r.value.containerName == st.containerName
    ensures entity.Some? && FromRow(entity.value).Success? && FromRow(entity.value).value.Some? ==>
              var t := FromRow(entity.value).value.value;
              var k := (t.base.gameId, t.base.hitId.value);
              && (r.Success? <==> st.hasTableClient)
              && (r.Success? ==>
                    && r.value.table.Keys == st.table.Keys + {k}
                    && (forall k' :: k' in st.table && k' != k ==> r.value.table[k'] == st.table[k'])
                    && IsHITQualified in r.value.table[k]
                    && r.value.table[k][IsHITQualified] == OrNA(Bool(rec.isQualified))
                    && WorkerId in r.value.table[k]
                    && r.value.table[k][WorkerId] == OrNA(Str(rec.workerId))
                    && InputInstruction in r.value.table[k]
                    && r.value.table[k][InputInstruction] == OrNA(InstructionOf(rec.answer, questionId))
                    && ActionDataPath in r.value.table[k]
                    && r.value.table[k][ActionDataPath]
                       == Str(JoinStripped([resultContainer, t.startingWorldBlobPath, ActionSubpath, t.base.gameId])))
  {
    if entity.None? then Success(st)
    else
      var t :- FromRow(entity.value);
      if t.None? then Success(st)
      else
        var t1 := UpdateResultBlobPath(t.value, resultContainer, ActionSubpath);
        var t2 := t1.(base := t1.base.(
          inputInstructions := InstructionOf(rec.answer, questionId),
          isQualified := Bool(rec.isQualified),
          workerId := Str(rec.workerId)));
        UpsertTurn(st, t2)
  }

  /** A row read from a well-formed table is written back under its own
      key, so the table's key set does not change. */
  lemma ApplyResultKeepsKeys(st: Storage, rec: AnswerRecord, k: Key, resultContainer: string, questionId: string)
    requires WellFormed(st.table) && k in st.table
    ensures var r := ApplyResult(st, rec, Some(st.table[k]), resultContainer, questionId);
            r.Success? ==> r.value.table.Keys == st.table.Keys && WellFormed(r.value.table)
  {
    var row := st.table[k];
    var r := ApplyResult(st, rec, Some(row), resultContainer, questionId);
    if r.Success? && FromRow(row).value.Some? {
      var t := FromRow(row).value.value;
      assert row[PartitionKey] == Str(k.0) && row[PartitionKey] == Str(t.base.gameId);
      assert row[RowKey] == Str(k.1) && row[RowKey] == Str(t.base.hitId.value);
      WritesKeepTableWellFormed(st, UpdateWithRecord(t, rec, resultContainer, questionId));
    }
  }

  /** The turn ApplyResult upserts. */
  function UpdateWithRecord(t: DatasetTurn, rec: AnswerRecord, resultContainer: string, questionId: string)
    : DatasetTurn
  {
    var t1 := UpdateResultBlobPath(t, resultContainer, ActionSubpath);
    t1.(base := t1.base.(
      inputInstructions := InstructionOf(rec.answer, questionId),
      isQualified := Bool(rec.isQualified),
      workerId := Str(rec.workerId)))
  }

  /** The result cells of `row` hold the record `rec` written back into
      the turn `t`: worker id, qualification and instruction (falsy values
      as "NA") and the location of the action data. */
  predicate HoldsResult(row: Row, rec: AnswerRecord, t: DatasetTurn, resultContainer: string, questionId: string) {
    && IsHITQualified in row && row[IsHITQualified] == OrNA(Bool(rec.isQualified))
    && WorkerId in row && row[WorkerId] == OrNA(Str(rec.workerId))
    && InputInstruction in row && row[InputInstruction] == OrNA(InstructionOf(rec.answer, questionId))
    && ActionDataPath in row
    && row[ActionDataPath] == Str(JoinStripped([resultContainer, t.startingWorldBlobPath, ActionSubpath, t.base.gameId]))
  }

  /** Writing back the row stored under `k` touches no other row. It
      succeeds only if the row reads as a turn; a row without a world path
      leaves the storage as it is, and any other row ends up holding the
      record. */
  lemma ApplyResultWritesOwnRow(st: Storage, rec: AnswerRecord, k: Key, resultContainer: string, questionId: string)
    requires WellFormed(st.table) && k in st.table
    ensures var r := ApplyResult(st, rec, Some(st.table[k]), resultContainer, questionId);
            r.Success? ==>
              && FromRow(st.table[k]).Success?
              && (FromRow(st.table[k]).value.None? ==> r.value == st)
              && (forall k' :: k' in st.table && k' != k ==> k' in r.value.table && r.value.table[k'] == st.table[k'])
              && (FromRow(st.table[k]).value.Some? ==>
                    k in r.value.table
                    && HoldsResult(r.value.table[k], rec, FromRow(st.table[k]).value.value, resultContainer, questionId))
  {
    var row := st.table[k];
    var r := ApplyResult(st, rec, Some(row), resultContainer, questionId);
    if r.Success? && FromRow(row).value.Some? {
      var t := FromRow(row).value.value;
      assert row[PartitionKey] == Str(k.0) && row[PartitionKey] == Str(t.base.gameId);
      assert row[RowKey] == Str(k.1) && row[RowKey] == Str(t.base.hitId.value);
      assert k == (t.base.gameId, t.base.hitId.value);
    }
  }

  /** `k` is the only row of `table` whose RowKey is `k.1`, so a lookup by
      that HIT id cannot find another row. */
  ghost predicate OnlyRowOf(table: Table, k: Key) {
    forall k' :: Matches(table, k', RowKey, k.1) ==> k' == k
  }

  /** Every row of `st0` whose HIT is not in `done` is still in `table`,
      unchanged. */
  ghost predicate Untouched(st0: Table, table: Table, done: set<string>) {
    forall k :: k in st0 && k.1 !in done ==> k in table && table[k] == st0[k]
  }

  /** Every row of `st0` that is the only row of a HIT in `done` read as
      a turn, and in `table` it is either unchanged (no world path) or
      holds the HIT's record. */
  ghost predicate WrittenBack(st0: Table, table: Table, results: map<string, AnswerRecord>, done: set<string>,
                              resultContainer: string, questionId: string)
  {
    forall k :: k in st0 && k.1 in done && k.1 in results && OnlyRowOf(st0, k) ==>
      && FromRow(st0[k]).Success?
      && k in table
      && (FromRow(st0[k]).value.None? ==> table[k] == st0[k])
      && (FromRow(st0[k]).value.Some? ==>
            HoldsResult(table[k], results[k.1], FromRow(st0[k]).value.value, resultContainer, questionId))
  }

  /** The row a HIT's lookup finds, while that HIT is not yet handled, is
      one of the rows the table started with; so when every starting row of
      a HIT with a result reads as a turn, writing it back cannot fail. */
  lemma ApplyResultSucceeds(st0: Table, before: Storage, results: map<string, AnswerRecord>, done: set<string>,
                            hitId: string, entity: Option<Row>, resultContainer: string, questionId: string)
    requires WellFormed(before.table) && before.table.Keys == st0.Keys && before.hasTableClient
    requires hitId in results && hitId !in done
    requires Untouched(st0, before.table, done)
    requires entity.Some? ==> exists k :: Matches(before.table, k, RowKey, hitId) && before.table[k] == entity.value
    requires forall k :: k in st0 && k.1 in results ==> FromRow(st0[k]).Success?
    ensures ApplyResult(before, results[hitId], entity, resultContainer, questionId).Success?
  {
    if entity.Some? {
      var k :| Matches(before.table, k, RowKey, hitId) && before.table[k] == entity.value;
      assert k.1 == hitId && k in st0;
      assert st0[k] == entity.value;
    }
  }

  /** One iteration of the result loop: the HIT's row, looked up in the
      current table, is written back; the rows of the HITs not yet handled
      stay as they were at the start, and those already handled keep
      their results. */
  lemma SaveStep(st0: Table, before: Storage, after: Storage, results: map<string, AnswerRecord>,
                 done: set<string>, hitId: string, entity: Option<Row>,
                 resultContainer: string, questionId: string)
    requires WellFormed(st0) && WellFormed(before.table) && before.table.Keys == st0.Keys
    requires hitId in results && hitId !in done
    requires Untouched(st0, before.table, done)
    requires WrittenBack(st0, before.table, results, done, resultContainer, questionId)
    requires entity.Some? ==> exists k :: Matches(before.table, k, RowKey, hitId) && before.table[k] == entity.value
    requires entity.None? ==> forall k :: !Matches(before.table, k, RowKey, hitId)
    requires ApplyResult(before, results[hitId], entity, resultContainer, questionId) == Success(after)
    ensures after.table.Keys == st0.Keys && WellFormed(after.table)
    ensures Untouched(st0, after.table, done + {hitId})
    ensures WrittenBack(st0, after.table, results, done + {hitId}, resultContainer, questionId)
  {
    if entity.None? {
      SaveStepNoRow(st0, before.table, results, done, hitId, resultContainer, questionId);
    } else {
      var k0 :| Matches(before.table, k0, RowKey, hitId) && before.table[k0] == entity.value;
      ApplyResultKeepsKeys(before, results[hitId], k0, resultContainer, questionId);
      ApplyResultWritesOwnRow(before, results[hitId], k0, resultContainer, questionId);
      SaveStepOwnRow(st0, before.table, after.table, results, done, hitId, k0, resultContainer, questionId);
    }
  }

  /** A HIT without a row: nothing is written, and no row of the HIT is
      left unhandled. */
  lemma SaveStepNoRow(st0: Table, table: Table, results: map<string, AnswerRecord>, done: set<string>,
                      hitId: string, resultContainer: string, questionId: string)
    requires WellFormed(st0) && hitId !in done
    requires Untouched(st0, table, done)
    requires WrittenBack(st0, table, results, done, resultContainer, questionId)
    requires forall k :: !Matches(table, k, RowKey, hitId)
    ensures Untouched(st0, table, done + {hitId})
    ensures WrittenBack(st0, table, results, done + {hitId}, resultContainer, questionId)
  {
    forall k | k in st0 && k.1 == hitId
      ensures false
    {
      assert Matches(table, k, RowKey, hitId);
    }
  }

  /** A HIT whose row `k0` was found: only that row changes, and when it
      is the HIT's only row it now holds the HIT's record. */
  lemma SaveStepOwnRow(st0: Table, before: Table, after: Table, results: map<string, AnswerRecord>,
                       done: set<string>, hitId: string, k0: Key, resultContainer: string, questionId: string)
    requires WellFormed(st0) && WellFormed(before) && before.Keys == st0.Keys
    requires hitId in results && hitId !in done
    requires Untouched(st0, before, done)
    requires WrittenBack(st0, before, results, done, resultContainer, questionId)
    requires Matches(before, k0, RowKey, hitId)
    requires FromRow(before[k0]).Success?
    requires FromRow(before[k0]).value.None? ==> after == before
    requires forall k' :: k' in before && k' != k0 ==> k' in after && after[k'] == before[k']
    requires FromRow(before[k0]).value.Some? ==>
               k0 in after
               && HoldsResult(after[k0], results[hitId], FromRow(before[k0]).value.value, resultContainer, questionId)
    ensures Untouched(st0, after, done + {hitId})
    ensures WrittenBack(st0, after, results, done + {hitId}, resultContainer, questionId)
  {
    assert k0.1 == hitId;
    assert before[k0] == st0[k0];
    assert Matches(st0, k0, RowKey, hitId);
    forall k | k in st0 && k.1 in done + {hitId} && k.1 in results && OnlyRowOf(st0, k)
      ensures && FromRow(st0[k]).Success? && k in after
              && (FromRow(st0[k]).value.None? ==> after[k] == st0[k])
              && (FromRow(st0[k]).value.Some? ==>
                    HoldsResult(after[k], results[k.1], FromRow(st0[k]).value.value, resultContainer, questionId))
    {
      if k.1 == hitId {
        assert k == k0;
      } else {
        assert k != k0 && after[k] == before[k];
      }
    }
  }

  // ---------------------------------------------------------------------
  // One polling iteration

  /** The methods the storage object defines, and the ones the HIT manager
      defines. */
  const StorageMethods: set<string> := {
    "get_last_game_index", "get_index_from_game_id", "game_id_from_game_index",
    "select_start_worlds_ids", "get_turns_from_open_game", "get_open_turns",
    "retrieve_turn_entity", "save_new_turn", "upsert_turn", "create_container_client"}
  const ManagerMethods: set<string> := {
    "create_hit", "get_open_hit_ids", "is_hit_expired", "complete_open_assignments", "close_assignment"}

  /** A call of `name` on the storage object: it raises unless the storage
      defines the method. */
  function CallOnStorage(name: string): (r: Result<()>)
    ensures r.Success? <==> name in StorageMethods
  {
    if name in StorageMethods then Success(()) else Failure(NoSuchMethod(name))
  }

  /** The polling iteration as written asks the storage, not the HIT
      manager, for the open HITs; only the manager defines that method, so
      the first iteration raises. */
  function PollStepAsWritten(st: Storage, m: Manager, now: int): (r: Result<PollOutcome>)
    ensures r == Failure(NoSuchMethod("get_open_hit_ids"))
  {
    var call := CallOnStorage("get_open_hit_ids");
    if call.Failure? then Failure(call.error) else Success(Finished)
  }

  lemma OpenHitsQueryOnlyOnManager()
    ensures "get_open_hit_ids" !in StorageMethods && "get_open_hit_ids" in ManagerMethods
    ensures forall st, m, now :: PollStepAsWritten(st, m, now).Failure?
  {
  }

  /** How one polling iteration ended: no open HIT is left (the loop
      exits), nothing was submitted (the loop sleeps and retries), or the
      results of the listed HITs were saved. */
  datatype PollOutcome = Finished | Waited | Saved(hits: set<string>)

  /** The result loop of the polling iteration: each collected record is
      written back into the row of the turn its HIT belongs to. The table
      keeps its keys and stays well formed; the rows of HITs without a
      result are unchanged, and the only row of each HIT with one holds
      that HIT's record (or is unchanged when it has no world path). */
  method SaveResults(st: Storage, results: map<string, AnswerRecord>, resultContainer: string, questionId: string)
    returns (r: Result<Storage>)
    requires WellFormed(st.table)
    ensures r.Success? ==> r.value.table.Keys == st.table.Keys && WellFormed(r.value.table)
    ensures r.Success? ==> r.value.hasTableClient == st.hasTableClient && r.value.containerName == st.containerName
    ensures |results| > 0 && !st.hasTableClient ==> r.Failure?
    ensures r.Success? ==> Untouched(st.table, r.value.table, results.Keys)
    ensures r.Success? ==> WrittenBack(st.table, r.value.table, results, results.Keys, resultContainer, questionId)
    ensures && (|results| == 0 || st.hasTableClient)
            && (forall k :: k in st.table && k.1 in results ==> FromRow(st.table[k]).Success?)
            ==> r.Success?
  {
    var storage := st;
    var pending := results.Keys;
    while pending != {}
      invariant pending <= results.Keys
      invariant storage.table.Keys == st.table.Keys && WellFormed(storage.table)
      invariant storage.hasTableClient == st.hasTableClient && storage.containerName == st.containerName
      invariant pending != results.Keys ==> storage.hasTableClient
      invariant Untouched(st.table, storage.table, results.Keys - pending)
      invariant WrittenBack(st.table, storage.table, results, results.Keys - pending, resultContainer, questionId)
      decreases |pending|
    {
      var hitId :| hitId in pending;
      var entity :- SingleTurnStorage.RetrieveTurnEntity(storage, hitId, RowKey, false);
      if forall k :: k in st.table && k.1 in results ==> FromRow(st.table[k]).Success? {
        ApplyResultSucceeds(st.table, storage, results, results.Keys - pending, hitId, entity, resultContainer, questionId);
      }
      var next :- ApplyResult(storage, results[hitId], entity, resultContainer, questionId);
      SaveStep(st.table, storage, next, results, results.Keys - pending, hitId, entity, resultContainer, questionId);
      assert results.Keys - (pending - {hitId}) == (results.Keys - pending) + {hitId};
      storage := next;
      pending := pending - {hitId};
    }
    r := Success(storage);
  }

  /** The record `complete_open_assignments` keeps for each of `hits`
      that has waiting assignments: that of the last one. */
  function LastRecords(m: Manager, hits: set<string>): (recs: map<string, AnswerRecord>)
    ensures recs.Keys == set h | h in hits && |Submitted(m.market, h)| > 0
    ensures forall h :: h in recs ==> recs[h] == RecordOf(m.verify, Last(Submitted(m.market, h)))
  {
    map h | h in hits && |Submitted(m.market, h)| > 0 :: RecordOf(m.verify, Last(Submitted(m.market, h)))
  }

  /** The records collected for the listed open HITs are those of the
      open HITs with waiting assignments, whatever the listing order. */
  lemma CollectedRecords(m: Manager, open: seq<string>, expected: set<string>)
    requires forall id :: id in open <==> id in expected
    ensures var results := CompleteOpenAssignments(m, open).1;
            && results.Keys == set id | id in expected && |Submitted(m.market, id)| > 0
            && results == LastRecords(m, results.Keys)
  {
  }

  /** One iteration of the polling loop, asking the HIT manager for the
      open HITs of the tag the HITs were created with. It waits exactly
      when open HITs exist but none has a waiting assignment; otherwise it
      saves the results of exactly the open HITs with waiting assignments,
      each HIT's only row receiving the record of its last assignment. */
  method PollStep(st: Storage, m: Manager, now: int, resultContainer: string, questionId: string)
    returns (r: Result<(Storage, Manager, PollOutcome)>)
    requires WellFormed(st.table)
    ensures OpenHitSet(Listing(m), TurnType, now, m.sessionOpenHits).Failure? ==> r.Failure?
    ensures r.Success? ==>
              && OpenHitSet(Listing(m), TurnType, now, m.sessionOpenHits).Success?
              && (r.value.2 == Finished <==> OpenHitSet(Listing(m), TurnType, now, m.sessionOpenHits).value == {})
    ensures r.Success? ==>
              var open := OpenHitSet(Listing(m), TurnType, now, m.sessionOpenHits).value;
              r.value.2 == Waited <==> open != {} && forall id :: id in open ==> |Submitted(m.market, id)| == 0
    ensures r.Success? && r.value.2 == Finished ==>
              r.value.0 == st && r.value.1.market == m.market && r.value.1.sessionOpenHits == m.sessionOpenHits
    ensures r.Success? && r.value.2 == Waited ==> r.value.0 == st
    ensures r.Success? && (r.value.2 == Finished || r.value.2 == Waited) ==> r.value.1 == m
    ensures r.Success? && r.value.2.Saved? ==>
              && (forall h :: h in r.value.2.hits ==> |Submitted(r.value.1.market, h)| == 0)
              && (forall h :: h !in r.value.2.hits ==> Submitted(r.value.1.market, h) == Submitted(m.market, h))
              && (forall h :: h in r.value.1.market.hits <==> h in m.market.hits && h.id !in r.value.2.hits)
              && r.value.1.market.assignments == m.market.assignments
              && r.value.1.verify == m.verify && r.value.1.maxHits == m.maxHits
    ensures r.Success? && r.value.2.Saved? ==>
              && r.value.2.hits
                 == set id | id in OpenHitSet(Listing(m), TurnType, now, m.sessionOpenHits).value
                             && |Submitted(m.market, id)| > 0
              && r.value.1.sessionOpenHits == m.sessionOpenHits - r.value.2.hits
    ensures r.Success? && r.value.2.Saved? ==>
              && Untouched(st.table, r.value.0.table, r.value.2.hits)
              && WrittenBack(st.table, r.value.0.table, LastRecords(m, r.value.2.hits), r.value.2.hits,
                             resultContainer, questionId)
    ensures r.Success? ==> r.value.0.table.Keys == st.table.Keys && WellFormed(r.value.0.table)
    ensures r.Success? ==> r.value.0.hasTableClient == st.hasTableClient && r.value.0.containerName == st.containerName
    ensures var open := OpenHitSet(Listing(m), TurnType, now, m.sessionOpenHits);
            open.Success? && open.value == {} ==> r.Success? && r.value.2 == Finished
    ensures var open := OpenHitSet(Listing(m), TurnType, now, m.sessionOpenHits);
            open.Success? && open.value != {} && (forall id :: id in open.value ==> |Submitted(m.market, id)| == 0) ==>
              r.Success? && r.value.2 == Waited
    ensures var open := OpenHitSet(Listing(m), TurnType, now, m.sessionOpenHits);
            && open.Success? && st.hasTableClient
            && (forall k :: k in st.table && k.1 in open.value && |Submitted(m.market, k.1)| > 0 ==>
                              FromRow(st.table[k]).Success?)
            ==> r.Success?
  {
    ghost var expected := OpenHitSet(Listing(m), TurnType, now, m.sessionOpenHits);
    var open :- GetOpenHitIds(m, TurnType, now);
    if |open| == 0 {
      assert forall id :: id !in expected.value;
      return Success((st, m, Finished));
    }
    assert open[0] in expected.value;
    var (m1, results) := CompleteOpenAssignments(m, open);
    CollectedRecords(m, open, expected.value);
    if |results| == 0 {
      assert forall id :: id in expected.value ==> |Submitted(m.market, id)| == 0 by {
        forall id | id in expected.value ensures |Submitted(m.market, id)| == 0 {
          assert id !in results.Keys;
        }
      }
      return Success((st, m1, Waited));
    }
    assert forall k :: k in st.table && k.1 in results ==> k.1 in expected.value && |Submitted(m.market, k.1)| > 0;
    var storage :- SaveResults(st, results, resultContainer, questionId);
    r := Success((storage, m1, Saved(results.Keys)));
  }
}

=== FILE: dataset_turn.dfy ===
/** The single-turn dataset turn: a turn that starts from a world saved at
    `<container>/<blob path>/<blob name>/<step>`, and its mapping to and
    from one row of the HITs table. */
module DatasetTurns {
  import opened Common
  import opened Strings
  import opened Turns

  /** Column names of the HITs table. */
  const PartitionKey := "PartitionKey"
  const RowKey := "RowKey"
  const HitType := "HitType"
  const IsHITQualified := "IsHITQualified"
  const WorkerId := "WorkerId"
  const InitializedWorldStructureId := "InitializedWorldStructureId"
  const InitializedWorldPath := "InitializedWorldPath"
  const InitializedWorld := "InitializedWorld"
  const ActionDataPath := "ActionDataPath"
  const InputInstruction := "InputInstruction"

  /** A dataset turn: the base turn plus where its starting world lives. */
  datatype DatasetTurn = DatasetTurn(
    base: Turn,
    startingWorldBlobPath: string,
    startingWorldBlobName: string,
    startingStep: string)
  {
    /** Name of the sample screenshot of the starting world. */
    function ScreenshotStepView(): string {
      startingStep + "_north"
    }
  }

  /** `SingleTurnDatasetTurn.__init__`. */
  function NewDatasetTurn(
    gameId: string, turnType: string, initializedStructureId: Value,
    blobPath: string, blobName: string, step: string): (t: DatasetTurn)
    ensures t.base == NewTurn(gameId, turnType, initializedStructureId)
    ensures t.startingWorldBlobPath == blobPath && t.startingWorldBlobName == blobName
    ensures t.startingStep == step
    ensures t.ScreenshotStepView() == step + "_north"
  {
    DatasetTurn(NewTurn(gameId, turnType, initializedStructureId), blobPath, blobName, step)
  }

  /** `'/'.join(p.strip('/') for p in parts)`. */
  function JoinStripped(parts: seq<string>): string {
    Join(seq(|parts|, i requires 0 <= i < |parts| => Strip(parts[i], '/')), '/')
  }

  /** `_build_starting_world_path`. */
  function BuildStartingWorldPath(container: string, blobPath: string, blobName: string, step: string): string {
    JoinStripped([container, blobPath, blobName, step])
  }

  /** `_split_starting_world_path`: the four segments, or None when the
      path does not have exactly four. */
  function SplitStartingWorldPath(path: string): (r: Option<seq<string>>)
    ensures r.Some? <==> |Split(path, '/')| == 4
    ensures r.Some? ==> r.value == Split(path, '/') && |r.value| == 4
    ensures r.Some? ==> Join(r.value, '/') == path
    ensures r.Some? ==> forall i :: 0 <= i < 4 ==> '/' !in r.value[i]
  {
    var parts := Split(path, '/');
    JoinSplit(path, '/');
    if |parts| != 4 then None else Some(parts)
  }

  /** Splitting a built path gives back its four components when none of
      them contains a slash; a container such as "mturk-vw/" comes back
      without its surrounding slashes. */
  lemma SplitBuiltPath(container: string, blobPath: string, blobName: string, step: string)
    requires '/' !in Strip(container, '/')
    requires '/' !in blobPath && '/' !in blobName && '/' !in step
    ensures SplitStartingWorldPath(BuildStartingWorldPath(container, blobPath, blobName, step))
            == Some([Strip(container, '/'), blobPath, blobName, step])
  {
    var parts := [Strip(container, '/'), blobPath, blobName, step];
    var path := BuildStartingWorldPath(container, blobPath, blobName, step);
    assert Strip(blobPath, '/') == blobPath && Strip(blobName, '/') == blobName;
    assert Strip(step, '/') == step;
    BuildIsJoinOfStripped(container, blobPath, blobName, step);
    SplitJoin(parts, '/');
  }

  /** A built path joins the four components' stripped forms. */
  lemma BuildIsJoinOfStripped(container: string, blobPath: string, blobName: string, step: string)
    ensures BuildStartingWorldPath(container, blobPath, blobName, step)
            == Join([Strip(container, '/'), Strip(blobPath, '/'), Strip(blobName, '/'), Strip(step, '/')], '/')
  {
    var parts := [container, blobPath, blobName, step];
    assert seq(4, i requires 0 <= i < 4 => Strip(parts[i], '/'))
           == [Strip(container, '/'), Strip(blobPath, '/'), Strip(blobName, '/'), Strip(step, '/')];
  }

  /** Building a path from the segments of a four-segment path gives the
      path back. */
  lemma BuildSplitPath(path: string)
    requires SplitStartingWorldPath(path).Some?
    ensures var p := SplitStartingWorldPath(path).value;
            BuildStartingWorldPath(p[0], p[1], p[2], p[3]) == path
  {
    var p := SplitStartingWorldPath(path).value;
    var stripped := seq(4, i requires 0 <= i < 4 => Strip(p[i], '/'));
    assert stripped == p;
    assert p == [p[0], p[1], p[2], p[3]];
  }

  /** `update_result_blob_path`: the result location is
      `<container>/<starting blob path>/<subpath>/<game id>`, each part
      stripped of surrounding slashes; nothing else changes. */
  function UpdateResultBlobPath(t: DatasetTurn, container: string, subpath: string): (t': DatasetTurn)
    ensures t'.base.resultBlobPath
            == Str(JoinStripped([container, t.startingWorldBlobPath, subpath, t.base.gameId]))
    ensures t' == t.(base := t.base.(resultBlobPath := t'.base.resultBlobPath))
  {
    t.(base := t.base.(resultBlobPath :=
      Str(JoinStripped([container, t.startingWorldBlobPath, subpath, t.base.gameId]))))
  }

  /** `to_database_entry`: None for a turn without a HIT; otherwise the row
      keyed by (game id, HIT id), with falsy results written as "NA". */
  function ToRow(t: DatasetTurn, container: string): (r: Option<Row>)
    ensures r.None? <==> t.base.hitId.None?
    ensures r.Some? ==>
      && r.value.Keys == {PartitionKey, RowKey, HitType, IsHITQualified, WorkerId,
                           InitializedWorldStructureId, InitializedWorldPath,
                           ActionDataPath, InputInstruction}
      && r.value[PartitionKey] == Str(t.base.gameId)
      && r.value[RowKey] == Str(t.base.hitId.value)
      && r.value[HitType] == Str(t.base.turnType)
      && r.value[InitializedWorldStructureId] == t.base.initializedStructureId
      && (forall col :: col in ResultColumns ==> Truthy(r.value[col]))
      && r.value[IsHITQualified] == OrNA(t.base.isQualified)
      && r.value[WorkerId] == OrNA(t.base.workerId)
      && r.value[ActionDataPath] == OrNA(t.base.resultBlobPath)
      && r.value[InputInstruction] == OrNA(t.base.inputInstructions)
      && r.value[InitializedWorldPath] == Str(BuildStartingWorldPath(
           container, t.startingWorldBlobPath, t.startingWorldBlobName, t.startingStep))
  {
    if t.base.hitId.None? then None
    else
      Some(map[
        PartitionKey := Str(t.base.gameId),
        RowKey := Str(t.base.hitId.value),
        HitType := Str(t.base.turnType),
        IsHITQualified := OrNA(t.base.isQualified),
        WorkerId := OrNA(t.base.workerId),
        InitializedWorldStructureId := t.base.initializedStructureId,
        InitializedWorldPath := Str(BuildStartingWorldPath(
          container, t.startingWorldBlobPath, t.startingWorldBlobName, t.startingStep)),
        ActionDataPath := OrNA(t.base.resultBlobPath),
        InputInstruction := OrNA(t.base.inputInstructions)])
  }

  /** The columns that hold a worker's results. */
  const ResultColumns: set<string> := {IsHITQualified, WorkerId, ActionDataPath, InputInstruction}

  /** The stored world path of a row: `InitializedWorldPath` if present,
      otherwise the screenshot path `InitializedWorld` without ".png";
      None when the row has neither. */
  function WorldPathOf(row: Row): (r: Result<Option<string>>)
    ensures InitializedWorldPath in row ==>
              r == (if row[InitializedWorldPath].Str? then Success(Some(row[InitializedWorldPath].s))
                    else Failure(NotAString(InitializedWorldPath)))
    ensures InitializedWorldPath !in row && InitializedWorld in row && row[InitializedWorld].Str? ==>
              r == Success(Some(RemovePng(row[InitializedWorld].s)))
    ensures InitializedWorldPath !in row && InitializedWorld in row && !row[InitializedWorld].Str? ==>
              r == Failure(NotAString(InitializedWorld))
    ensures InitializedWorldPath !in row && InitializedWorld !in row ==>
              (r.Success? <==> PartitionKey in row) && (r.Success? ==> r.value.None?)
  {
    if InitializedWorldPath in row then
      var p :- GetString(row, InitializedWorldPath);
      Success(Some(p))
    else if InitializedWorld in row then
      var p :- GetString(row, InitializedWorld);
      Success(Some(RemovePng(p)))
    else if PartitionKey in row then
      // the error log reads the partition key, then None is returned
      Success(None)
    else
      Failure(KeyError(PartitionKey))
  }

  /** `from_database_entry`: Success(None) where the source returns None,
      Failure where it raises. Absent result columns read as "NA". */
  function FromRow(row: Row): (r: Result<Option<DatasetTurn>>)
    ensures r.Success? && r.value.Some? ==>
      var t := r.value.value;
      && WorldPathOf(row).Success? && WorldPathOf(row).value.Some?
      && var parts := SplitStartingWorldPath(WorldPathOf(row).value.value);
      && parts.Some?
      && parts.value[1] == t.startingWorldBlobPath
      && parts.value[2] == t.startingWorldBlobName
      && parts.value[3] == t.startingStep
      && PartitionKey in row && RowKey in row && HitType in row && t.base.hitId.Some?
      && row[PartitionKey] == Str(t.base.gameId)
      && row[RowKey] == Str(t.base.hitId.value)
      && row[HitType] == Str(t.base.turnType)
      && t.base.initializedStructureId == Get(row, InitializedWorldStructureId, Null)
      && t.base.workerId == Get(row, WorkerId, NA)
      && t.base.isQualified == Get(row, IsHITQualified, NA)
      && t.base.resultBlobPath == Get(row, ActionDataPath, NA)
      && t.base.inputInstructions == Get(row, InputInstruction, NA)
    ensures r.Success? && r.value.None? <==> WorldPathOf(row) == Success(None)
    ensures r.Success? <==>
      && WorldPathOf(row).Success?
      && (WorldPathOf(row).value.Some? ==>
            && SplitStartingWorldPath(WorldPathOf(row).value.value).Some?
            && GetString(row, PartitionKey).Success?
            && GetString(row, HitType).Success?
            && GetString(row, RowKey).Success?)
  {
    var path :- WorldPathOf(row);
    if path.None? then Success(None)
    else
      var parts := SplitStartingWorldPath(path.value);
      if parts.None? then Failure(NotUnpackable)
      else
        var gameId :- GetString(row, PartitionKey);
        var turnType :- GetString(row, HitType);
        var t := NewDatasetTurn(gameId, turnType, Get(row, InitializedWorldStructureId, Null),
                                parts.value[1], parts.value[2], parts.value[3]);
        var hitId :- GetString(row, RowKey);
        var t := t.(base := SetHitId(t.base, hitId));
        Success(Some(t.(base := t.base.(
          inputInstructions := Get(row, InputInstruction, NA),
          isQualified := Get(row, IsHITQualified, NA),
          workerId := Get(row, WorkerId, NA),
          resultBlobPath := Get(row, ActionDataPath, NA)))))
  }

  /** Turn -> row -> turn: every identifier and path part survives, and
      each result attribute comes back as itself or as "NA" when it was
      falsy. */
  lemma TurnRowTurn(t: DatasetTurn, container: string)
    requires t.base.hitId.Some?
    requires '/' !in Strip(container, '/') && '/' !in t.startingWorldBlobPath
    requires '/' !in t.startingWorldBlobName && '/' !in t.startingStep
    ensures FromRow(ToRow(t, container).value) == Success(Some(t.(base := t.base.(
              workerId := OrNA(t.base.workerId),
              isQualified := OrNA(t.base.isQualified),
              resultBlobPath := OrNA(t.base.resultBlobPath),
              inputInstructions := OrNA(t.base.inputInstructions)))))
  {
    SplitBuiltPath(container, t.startingWorldBlobPath, t.startingWorldBlobName, t.startingStep);
  }

  /** Row -> turn -> row, written back to the container named in the row's
      world path: keys, turn type and world path are reproduced exactly,
      every truthy result cell is kept and every other result cell reads
      "NA". */
  lemma RowTurnRow(row: Row, t: DatasetTurn)
    requires FromRow(row) == Success(Some(t))
    requires InitializedWorldPath in row
    ensures ToRow(t, Split(row[InitializedWorldPath].s, '/')[0]).Some?
    ensures var out := ToRow(t, Split(row[InitializedWorldPath].s, '/')[0]).value;
            && out[PartitionKey] == row[PartitionKey]
            && out[RowKey] == row[RowKey]
            && out[HitType] == row[HitType]
            && out[InitializedWorldPath] == row[InitializedWorldPath]
    ensures var out := ToRow(t, Split(row[InitializedWorldPath].s, '/')[0]).value;
            && out[IsHITQualified] == OrNA(Get(row, IsHITQualified, NA))
            && out[WorkerId] == OrNA(Get(row, WorkerId, NA))
            && out[ActionDataPath] == OrNA(Get(row, ActionDataPath, NA))
            && out[InputInstruction] == OrNA(Get(row, InputInstruction, NA))
  {
    assert row[InitializedWorldPath].Str?;
    var path := row[InitializedWorldPath].s;
    assert WorldPathOf(row) == Success(Some(path));
    var parts := SplitStartingWorldPath(path).value;
    BuildSplitPath(path);
    var out := ToRow(t, parts[0]).value;
    assert out[InitializedWorldPath] == Str(path);
  }
}

=== FILE: game_ids.dfy ===
/** Game ids of the form `game-<n>`: reading the number back out of an id,
    building an id from a number, and the largest number among stored ids. */
module GameIds {
  import opened Common
  import opened Strings

  /** `get_index_from_game_id` of the single-turn storage: with a dash, the
      integer after the last dash (anything else raises); without one, the
      whole id as an integer, or 0 when it is not one. */
  function IndexFromGameId(id: string): (r: Result<nat>)
    ensures '-' in id ==>
              (r.Success? <==> ParseNat(Last(Split(id, '-'))).Some?)
              && (r.Success? ==> r.value == ParseNat(Last(Split(id, '-'))).value)
    ensures '-' !in id ==> r == Success(ParseNat(id).GetOr(0))
  {
    if '-' in id then
      var tail := Last(Split(id, '-'));
      match ParseNat(tail)
      case Some(n) => Success(n)
      case None => Failure(NotAnInteger(tail))
    else
      Success(ParseNat(id).GetOr(0))
  }

  /** What `game_id_from_game_index` accepts: an integer or a string. */
  datatype IdOrIndex = Index(n: int) | Id(s: string)

  /** `game_id_from_game_index`: a string that already contains "game-" is
      returned as is; anything else is prefixed with "game-". */
  function GameIdFromGameIndex(x: IdOrIndex): (id: string)
    ensures Contains(id, "game-")
    ensures x.Id? && Contains(x.s, "game-") ==> id == x.s
    ensures x.Id? && !Contains(x.s, "game-") ==> id == "game-" + x.s
    ensures x.Index? ==> id == "game-" + IntToString(x.n)
  {
    match x
    case Id(s) =>
      if Contains(s, "game-") then s else ContainsPrefix("game-", s); "game-" + s
    case Index(n) =>
      ContainsPrefix("game-", IntToString(n)); "game-" + IntToString(n)
  }

  /** The id of game number `n`. */
  function GameId(n: nat): string {
    "game-" + NatToString(n)
  }

  /** Reading the number back out of the id of game `n` gives `n`. */
  lemma {:induction false} IndexOfGameId(n: nat)
    ensures GameIdFromGameIndex(Index(n)) == GameId(n)
    ensures IndexFromGameId(GameId(n)) == Success(n)
  {
    var digits := NatToString(n);
    var id := GameId(n);
    assert forall i :: 0 <= i < |digits| ==> digits[i] != '-';
    assert id == "game" + ['-'] + digits;
    SplitJoin(["game", digits], '-');
    assert Join(["game", digits], '-') == id;
    ParseNatToString(n);
  }

  /** Building an id is idempotent on its own output. */
  lemma GameIdFromGameIndexIdempotent(x: IdOrIndex)
    ensures GameIdFromGameIndex(Id(GameIdFromGameIndex(x))) == GameIdFromGameIndex(x)
  {
  }

  /** Ids of distinct game numbers are distinct. */
  lemma GameIdInjective(m: nat, n: nat)
    requires m != n
    ensures GameId(m) != GameId(n)
  {
    IndexOfGameId(m);
    IndexOfGameId(n);
  }

  /** The index of every id, in order; the first id whose index cannot be
      read makes the whole computation raise. The result is 0 for no ids,
      otherwise the largest index. */
  function MaxIndex(ids: seq<string>, index: string -> Result<nat>): (r: Result<nat>)
    ensures r.Success? <==> forall i :: 0 <= i < |ids| ==> index(ids[i]).Success?
    ensures r.Success? ==> forall i :: 0 <= i < |ids| ==> index(ids[i]).value <= r.value
    ensures r.Success? && |ids| > 0 ==>
              exists i :: 0 <= i < |ids| && index(ids[i]).value == r.value
    ensures |ids| == 0 ==> r == Success(0)
  {
    if |ids| == 0 then Success(0)
    else
      var first :- index(ids[0]);
      var rest :- MaxIndex(ids[1..], index);
      assert forall i :: 1 <= i < |ids| ==> ids[i] == ids[1..][i - 1];
      Success(if first >= rest then first else rest)
  }
}

=== FILE: game_storage.dfy ===
/** The table-storage layer shared by the game storages: a context-managed
    client over a keyed table of turn rows, with a guard that never writes a
    turn lacking a HIT id, insert-or-report for new turns, and merge-upsert
    for updated ones. */
module GameStorage {
  import opened Common
  import opened DatasetTurns

  /** (PartitionKey, RowKey) = (game id, HIT id). */
  type Key = (string, string)

  type Table = map<Key, Row>

  /** A table whose rows carry their own key in the key columns. */
  ghost predicate WellFormed(table: Table) {
    forall k :: k in table ==>
      && PartitionKey in table[k] && table[k][PartitionKey] == Str(k.0)
      && RowKey in table[k] && table[k][RowKey] == Str(k.1)
  }

  /** The storage object: whether a table client is open (it is between
      `__enter__` and `__exit__`), the table behind it, and the container
      name used when building world paths. */
  datatype Storage = Storage(hasTableClient: bool, table: Table, containerName: string)

  /** `__enter__`: a table client is opened on the same table. */
  function Enter(s: Storage): (s': Storage)
    ensures s'.hasTableClient
    ensures s'.(hasTableClient := s.hasTableClient) == s
  {
    s.(hasTableClient := true)
  }

  /** `__exit__`: the client is dropped; the returned flag is Python's
      "suppress the exception" answer. */
  function Exit(s: Storage): (r: (Storage, bool))
    ensures !r.0.hasTableClient && !r.1
    ensures r.0.(hasTableClient := s.hasTableClient) == s
  {
    (s.(hasTableClient := false), false)
  }

  /** `with storage as s: body(s)`: the body runs with a client, the client
      is gone afterwards, and whatever the body raised is raised by the
      whole block. */
  function With<T>(s: Storage, body: Storage -> (Storage, Result<T>)): (r: (Storage, Result<T>))
    ensures !r.0.hasTableClient
    ensures r.1 == body(Enter(s)).1
    ensures r.0.table == body(Enter(s)).0.table
  {
    var (inside, outcome) := body(Enter(s));
    // `__exit__` answers False, so an exception raised by the body propagates
    var (after, _) := Exit(inside);
    (after, outcome)
  }

  /** The rows whose `column` holds the string `value`. */
  predicate Matches(table: Table, k: Key, column: string, value: string) {
    k in table && column in table[k] && table[k][column] == Str(value)
  }

  /** `answer` lists, once each, exactly the keys of the rows a query
      `column eq 'value'` returns. Query results are an input of the model;
      this is what the table service promises about them. */
  ghost predicate IsQueryAnswer(table: Table, column: string, value: string, answer: seq<Key>) {
    && (forall i :: 0 <= i < |answer| ==> Matches(table, answer[i], column, value))
    && (forall k :: Matches(table, k, column, value) ==> k in answer)
    && (forall i, j :: 0 <= i < j < |answer| ==> answer[i] != answer[j])
  }

  /** `retrieve_turn_entity`: some row whose `column` equals `key`, or None
      when there is none. Without a client the lookup raises. */
  method RetrieveTurnEntity(s: Storage, key: string, column: string) returns (r: Result<Option<Row>>)
    ensures r.Failure? <==> !s.hasTableClient
    ensures r.Success? && r.value.Some? ==>
              exists k :: Matches(s.table, k, column, key) && s.table[k] == r.value.value
    ensures r.Success? && r.value.None? ==> forall k :: !Matches(s.table, k, column, key)
  {
    if !s.hasTableClient {
      return Failure(NoTableClient);
    }
    if k :| k in s.table && Matches(s.table, k, column, key) {
      r := Success(Some(s.table[k]));
    } else {
      r := Success(None);
    }
  }

  /** What `save_new_turn` did, short of raising. */
  datatype SaveOutcome = SkippedNoHit | Inserted | AlreadyExists

  /** `save_new_turn`. A turn without a HIT is skipped; a new key gets
      exactly the turn's row; an existing key is left alone (the conflict
      is only logged). */
  function SaveNewTurn(s: Storage, t: DatasetTurn): (r: Result<(Storage, SaveOutcome)>)
    ensures t.base.hitId.None? ==> r == Success((s, SkippedNoHit))
    ensures t.base.hitId.Some? ==> (r.Success? <==> s.hasTableClient)
    ensures r.Success? ==>
              r.value.0.hasTableClient == s.hasTableClient && r.value.0.containerName == s.containerName
    ensures r.Success? && t.base.hitId.Some? ==>
              var k := (t.base.gameId, t.base.hitId.value);
              && (k in s.table ==> r.value == (s, AlreadyExists))
              && (k !in s.table ==>
                    && r.value.1 == Inserted
                    && r.value.0.table.Keys == s.table.Keys + {k}
                    && r.value.0.table[k] == ToRow(t, s.containerName).value
                    && forall k' :: k' in s.table ==> r.value.0.table[k'] == s.table[k'])
  {
    if t.base.hitId.None? then Success((s, SkippedNoHit))
    else
      var entity := ToRow(t, s.containerName).value;
      if !s.hasTableClient then Failure(NoTableClient)
      else
        var k := (t.base.gameId, t.base.hitId.value);
        if k in s.table then Success((s, AlreadyExists))
        else Success((s.(table := s.table[k := entity]), Inserted))
  }

  /** `upsert_turn` in MERGE mode: the turn's columns overwrite, the stored
      row's other columns stay, and no other row changes. */
  function UpsertTurn(s: Storage, t: DatasetTurn): (r: Result<Storage>)
    ensures t.base.hitId.None? ==> r == Success(s)
    ensures t.base.hitId.Some? ==> (r.Success? <==> s.hasTableClient)
    ensures r.Success? ==>
              r.value.hasTableClient == s.hasTableClient && r.value.containerName == s.containerName
    ensures r.Success? && t.base.hitId.Some? ==>
              var k := (t.base.gameId, t.base.hitId.value);
              var entity := ToRow(t, s.containerName).value;
              && r.value.table.Keys == s.table.Keys + {k}
              && (forall col :: col in entity ==> col in r.value.table[k] && r.value.table[k][col] == entity[col])
              && (k in s.table ==> forall col :: col in s.table[k] && col !in entity ==>
                    col in r.value.table[k] && r.value.table[k][col] == s.table[k][col])
              && (k in s.table ==> r.value.table[k].Keys == s.table[k].Keys + entity.Keys)
              && (k !in s.table ==> r.value.table[k] == entity)
              && forall k' :: k' in s.table && k' != k ==> r.value.table[k'] == s.table[k']
  {
    if t.base.hitId.None? then Success(s)
    else
      var entity := ToRow(t, s.containerName).value;
      if !s.hasTableClient then Failure(NoTableClient)
      else
        var k := (t.base.gameId, t.base.hitId.value);
        var merged := if k in s.table then s.table[k] + entity else entity;
        Success(s.(table := s.table[k := merged]))
  }

  /** Upserting the same turn twice leaves the table as upserting it once. */
  lemma UpsertIdempotent(s: Storage, t: DatasetTurn)
    requires UpsertTurn(s, t).Success?
    ensures UpsertTurn(UpsertTurn(s, t).value, t) == UpsertTurn(s, t)
  {
    if t.base.hitId.Some? {
      var k := (t.base.gameId, t.base.hitId.value);
      var entity := ToRow(t, s.containerName).value;
      var once := UpsertTurn(s, t).value;
      assert once.table == s.table[k := if k in s.table then s.table[k] + entity else entity];
      MergeAgain(if k in s.table then s.table[k] else map[], entity);
      assert once.table[k] + entity == once.table[k];
      assert once.table[k := once.table[k] + entity] == once.table;
    }
  }

  /** Merging the same columns a second time changes nothing. */
  lemma MergeAgain<K, V>(stored: map<K, V>, entity: map<K, V>)
    ensures (stored + entity) + entity == stored + entity
  {
  }

  /** Both writes keep every row's key columns in step with its key. */
  lemma WritesKeepTableWellFormed(s: Storage, t: DatasetTurn)
    requires WellFormed(s.table)
    ensures SaveNewTurn(s, t).Success? ==> WellFormed(SaveNewTurn(s, t).value.0.table)
    ensures UpsertTurn(s, t).Success? ==> WellFormed(UpsertTurn(s, t).value.table)
  {
    if t.base.hitId.Some? && s.hasTableClient {
      var k := (t.base.gameId, t.base.hitId.value);
      var entity := ToRow(t, s.containerName).value;
      assert PartitionKey in entity && entity[PartitionKey] == Str(k.0);
      assert RowKey in entity && entity[RowKey] == Str(k.1);
      if k !in s.table {
        assert SaveNewTurn(s, t).value.0.table == s.table[k := entity];
        PutKeepsWellFormed(s.table, k, entity);
      }
      var merged := if k in s.table then s.table[k] + entity else entity;
      assert UpsertTurn(s, t).value.table == s.table[k := merged];
      PutKeepsWellFormed(s.table, k, merged);
    }
  }

  /** Storing a row whose key columns match its key keeps the table well
      formed. */
  lemma PutKeepsWellFormed(table: Table, k: Key, row: Row)
    requires WellFormed(table)
    requires PartitionKey in row && row[PartitionKey] == Str(k.0)
    requires RowKey in row && row[RowKey] == Str(k.1)
    ensures WellFormed(table[k := row])
  {
  }
}

=== FILE: grid_text.dfy ===
/** The caption helper of the grid plots: breaking a long instruction into
    lines at the first space after the length limit. */
module GridText {
  import opened Strings

  /** The lines glued back together, in order. */
  function Concat(lines: seq<string>): string {
    if |lines| == 0 then "" else Concat(lines[..|lines| - 1]) + lines[|lines| - 1]
  }

  /** A character missing from the glued text is missing from every line. */
  lemma {:induction false} NotInConcat(lines: seq<string>, c: char)
    requires c !in Concat(lines)
    ensures forall k :: 0 <= k < |lines| ==> c !in lines[k]
  {
    if |lines| > 0 {
      var init := lines[..|lines| - 1];
      assert Concat(lines) == Concat(init) + lines[|lines| - 1];
      NotInConcat(init, c);
      assert forall k :: 0 <= k < |lines| - 1 ==> lines[k] == init[k];
    }
  }

  /** The shape of the lines produced so far: every line but the last is
      longer than the limit, every line but the first opens with the space
      that broke it, and inside a line no space sits past the limit except
      at its start. */
  predicate Shaped(lines: seq<string>, maxCharLen: int) {
    && (forall k :: 0 <= k < |lines| - 1 ==> |lines[k]| > maxCharLen)
    && (forall k :: 1 <= k < |lines| ==> |lines[k]| > 0 && lines[k][0] == ' ')
    && (forall k, j :: 0 <= k < |lines| && 1 <= j < |lines[k]| && lines[k][j] == ' ' ==> j <= maxCharLen)
  }

  /** Opening a new line with the breaking space keeps the shape and the
      glued text grows by that space. */
  lemma BreakStep(lines: seq<string>, maxCharLen: int)
    requires |lines| > 0 && Shaped(lines, maxCharLen)
    requires |lines[|lines| - 1]| > maxCharLen
    ensures Shaped(lines + [" "], maxCharLen)
    ensures Concat(lines + [" "]) == Concat(lines) + " "
  {
    assert (lines + [" "])[..|lines|] == lines;
  }

  /** Appending a character that does not break keeps the shape, and the
      glued text grows by that character. */
  lemma AppendStep(lines: seq<string>, maxCharLen: int, ch: char)
    requires |lines| > 0 && Shaped(lines, maxCharLen)
    requires ch == ' ' ==> |lines[|lines| - 1]| <= maxCharLen
    ensures var n := |lines| - 1;
            var next := lines[..n] + [lines[n] + [ch]];
            Shaped(next, maxCharLen) && Concat(next) == Concat(lines) + [ch] && |next| == |lines|
  {
    var n := |lines| - 1;
    var next := lines[..n] + [lines[n] + [ch]];
    assert next[..n] == lines[..n];
    assert forall k :: 0 <= k < n ==> next[k] == lines[k];
    assert Concat(lines) == Concat(lines[..n]) + lines[n];
    assert Concat(next) == Concat(lines[..n]) + (lines[n] + [ch]);
  }

  /** The loop of `break_str_to_lines`: the lines before they are
      joined. */
  method BreakLines(text: string, maxCharLen: int) returns (lines: seq<string>)
    ensures |lines| >= 1 && Shaped(lines, maxCharLen)
    ensures Concat(lines) == text
    ensures ' ' !in text ==> |lines| == 1
  {
    lines := [""];
    assert Concat(lines) == "" by {
      assert lines[..0] == [];
    }
    var i := 0;
    while i < |text|
      invariant 0 <= i <= |text|
      invariant |lines| > 0 && Shaped(lines, maxCharLen)
      invariant Concat(lines) == text[..i]
      invariant ' ' !in text[..i] ==> |lines| == 1
    {
      var ch := text[i];
      assert text[..i + 1] == text[..i] + [ch];
      if |lines[|lines| - 1]| > maxCharLen && ch == ' ' {
        BreakStep(lines, maxCharLen);
        lines := lines + [" "];
      } else {
        AppendStep(lines, maxCharLen, ch);
        lines := lines[..|lines| - 1] + [lines[|lines| - 1] + [ch]];
      }
      i := i + 1;
    }
    assert text[..|text|] == text;
  }

  /** Joining lines that glue back to `text` with newlines, and splitting
      the result at newlines, gives the lines back when `text` has no
      newline of its own; a single line joins to itself. */
  lemma JoinLines(lines: seq<string>, text: string)
    requires |lines| >= 1 && Concat(lines) == text
    ensures '\n' !in text ==> Split(Join(lines, '\n'), '\n') == lines
    ensures |lines| == 1 ==> lines == [text] && Join(lines, '\n') == text
  {
    if '\n' !in text {
      NotInConcat(lines, '\n');
      SplitJoin(lines, '\n');
    }
    if |lines| == 1 {
      assert lines[..0] == [];
      assert Concat(lines) == Concat(lines[..0]) + lines[0];
      assert lines[0] == text;
      assert lines == [lines[0]];
    }
  }

  /** `break_str_to_lines`: the text is cut into lines, a new line being
      started at a space once the current one is longer than `maxCharLen`
      (the space opens the new line), and the lines are joined with
      newlines. */
  method BreakStrToLines(text: string, maxCharLen: int) returns (out: string, lines: seq<string>)
    ensures |lines| >= 1
    ensures Concat(lines) == text
    ensures out == Join(lines, '\n')
    ensures '\n' !in text ==> Split(out, '\n') == lines
    ensures forall k :: 0 <= k < |lines| - 1 ==> |lines[k]| > maxCharLen
    ensures forall k :: 1 <= k < |lines| ==> |lines[k]| > 0 && lines[k][0] == ' '
    ensures forall k, j :: 0 <= k < |lines| && 1 <= j < |lines[k]| && lines[k][j] == ' ' ==> j <= maxCharLen
    ensures ' ' !in text ==> lines == [text] && out == text
  {
    lines := BreakLines(text, maxCharLen);
    out := Join(lines, '\n');
    JoinLines(lines, text);
  }
}

=== FILE: hit_manager.dfy ===
/** The HIT manager: creating HITs on the crowdsourcing marketplace,
    finding the HITs of one type that are still open, and collecting,
    approving and closing the submitted assignments. The marketplace is
    modelled as plain state: its HITs in listing order, the assignments
    submitted for each HIT, and the approvals given so far. */
module HitManager {
  import opened Common
  import opened Strings

  datatype HitStatus = Assignable | Unassignable | Reviewable | Reviewing | Disposed

  datatype ReviewStatus = NotReviewed | MarkedForReview | ReviewedAppropriate | ReviewedInappropriate

  /** The RequesterAnnotation of a HIT: absent, a JSON object whose
      `hit_type` is known, or text from which no `hit_type` can be read. */
  datatype Annotation = NoAnnotation | Tagged(hitType: string) | Unreadable

  datatype Comparator = GreaterThan | In

  /** A qualification requirement, with integer or locale values. */
  datatype Requirement =
    | IntegerRequirement(typeId: string, comparator: Comparator, values: seq<int>)
    | LocaleRequirement(typeId: string, comparator: Comparator, countries: seq<string>)

  /** A HIT as the marketplace lists it; `expiration` is a timestamp in
      seconds. */
  datatype Hit = Hit(id: string, annotation: Annotation, status: HitStatus, reviewStatus: ReviewStatus,
                     expiration: int, requirements: seq<Requirement>)

  /** One answer of the parsed QuestionFormAnswers. */
  datatype AnswerField = AnswerField(questionIdentifier: string, freeText: string)

  datatype Assignment = Assignment(id: string, workerId: string, answer: seq<AnswerField>)

  /** The marketplace: HITs in listing order, assignments per HIT id, and
      the (HIT id, assignment id) pairs approved so far. */
  datatype Market = Market(hits: seq<Hit>, assignments: map<string, seq<Assignment>>,
                           approved: set<(string, string)>)

  /** The check applied to each collected answer. */
  type Verifier = (string, seq<AnswerField>) -> bool

  /** The manager: the marketplace it talks to, the HITs it opened in this
      session and not closed yet, its verification function, and the page
      size of its HIT listing. */
  datatype Manager = Manager(market: Market, sessionOpenHits: set<string>, verify: Verifier, maxHits: nat)

  /** The verifier used when none is supplied. */
  function AcceptAll(workerId: string, answer: seq<AnswerField>): bool {
    true
  }

  /** The constructor: an empty session, and the supplied verifier or one
      that accepts every answer. */
  function NewManager(market: Market, maxHits: nat, verify: Option<Verifier>): (m: Manager)
    ensures m.market == market && m.maxHits == maxHits && m.sessionOpenHits == {}
    ensures verify.None? ==> forall w, a :: m.verify(w, a)
    ensures verify.Some? ==> m.verify == verify.value
  {
    Manager(market, {}, if verify.Some? then verify.value else AcceptAll, maxHits)
  }

  // ---------------------------------------------------------------------
  // Creating HITs

  /** The type id of the marketplace's built-in country qualification. */
  const CountryQualificationTypeId := "00000000000000000071"

  /** The minimum score asked of a custom qualification, exclusive. */
  const MinimumQualificationScore := 80

  /** The qualification list of `create_hit`: the custom qualification
      first, when given, then the country restriction, when given. */
  function Qualifiers(qualificationTypeId: Option<string>, countries: Option<seq<string>>): (qs: seq<Requirement>)
    ensures |qs| == (if qualificationTypeId.Some? then 1 else 0) + (if countries.Some? then 1 else 0)
    ensures qualificationTypeId.Some? ==>
              qs[0] == IntegerRequirement(qualificationTypeId.value, GreaterThan, [MinimumQualificationScore])
    ensures countries.Some? ==>
              qs[|qs| - 1] == LocaleRequirement(CountryQualificationTypeId, In, countries.value)
  {
    (if qualificationTypeId.Some?
     then [IntegerRequirement(qualificationTypeId.value, GreaterThan, [MinimumQualificationScore])]
     else [])
    + (if countries.Some? then [LocaleRequirement(CountryQualificationTypeId, In, countries.value)] else [])
  }

  /** `create_hit`: the marketplace adds an assignable, unreviewed HIT
      tagged with `hitType` that expires `lifetime` seconds after `now`,
      under the id it picks (`newId`); the manager remembers that id as
      open in this session. */
  function CreateHit(m: Manager, hitType: string, lifetime: int, now: int, newId: string,
                     qualificationTypeId: Option<string>, countries: Option<seq<string>>): (r: (Manager, string))
    ensures r.1 == newId
    ensures r.0.sessionOpenHits == m.sessionOpenHits + {newId}
    ensures r.0.market.hits == m.market.hits
              + [Hit(newId, Tagged(hitType), Assignable, NotReviewed, now + lifetime,
                     Qualifiers(qualificationTypeId, countries))]
    ensures r.0.market.assignments == m.market.assignments && r.0.market.approved == m.market.approved
    ensures r.0.verify == m.verify && r.0.maxHits == m.maxHits
  {
    var hit := Hit(newId, Tagged(hitType), Assignable, NotReviewed, now + lifetime,
                   Qualifiers(qualificationTypeId, countries));
    (m.(market := m.market.(hits := m.market.hits + [hit]), sessionOpenHits := m.sessionOpenHits + {newId}), newId)
  }

  // ---------------------------------------------------------------------
  // Finding the open HITs

  /** `is_hit_expired`: the expiry instant itself already counts as
      expired. */
  predicate IsHitExpired(h: Hit, now: int) {
    now >= h.expiration
  }

  /** The filter of `get_open_hit_ids`: the right type, not disposed, not
      reviewed either way, and not expired. */
  predicate Selected(h: Hit, hitType: string, now: int) {
    && h.annotation == Tagged(hitType)
    && h.status != Disposed
    && h.reviewStatus != ReviewedAppropriate && h.reviewStatus != ReviewedInappropriate
    && !IsHitExpired(h, now)
  }

  /** The page `list_hits(MaxResults=max_hits)` returns. */
  function Listing(m: Manager): (page: seq<Hit>)
    ensures |page| <= m.maxHits && page <= m.market.hits
    ensures |m.market.hits| <= m.maxHits ==> page == m.market.hits
  {
    if |m.market.hits| <= m.maxHits then m.market.hits else m.market.hits[..m.maxHits]
  }

  /** The ids `get_open_hit_ids` answers, as a set: the selected HITs of
      the page together with every HIT opened in this session. Reading the
      type of a HIT whose annotation is unreadable raises. */
  function OpenHitSet(page: seq<Hit>, hitType: string, now: int, session: set<string>): (r: Result<set<string>>)
    ensures r.Success? <==> forall i :: 0 <= i < |page| ==> !page[i].annotation.Unreadable?
    ensures r.Success? ==> session <= r.value
    ensures r.Success? ==> forall i :: 0 <= i < |page| && Selected(page[i], hitType, now) ==> page[i].id in r.value
    ensures r.Success? ==> forall id :: id in r.value ==>
              id in session || exists i :: 0 <= i < |page| && page[i].id == id && Selected(page[i], hitType, now)
  {
    if exists i :: 0 <= i < |page| && page[i].annotation.Unreadable? then Failure(UnreadableAnnotation)
    else Success((set i | 0 <= i < |page| && Selected(page[i], hitType, now) :: page[i].id) + session)
  }

  /** `get_open_hit_ids`: walks the page once, then lists the union of the
      selected ids and the session's ids, each once. */
  method GetOpenHitIds(m: Manager, hitType: string, now: int) returns (r: Result<seq<string>>)
    ensures var expected := OpenHitSet(Listing(m), hitType, now, m.sessionOpenHits);
            && (r.Success? <==> expected.Success?)
            && (r.Success? ==> NoDuplicates(r.value) && forall id :: id in r.value <==> id in expected.value)
  {
    var page := Listing(m);
    var selected: set<string> := {};
    var i := 0;
    while i < |page|
      invariant 0 <= i <= |page|
      invariant forall j :: 0 <= j < i ==> !page[j].annotation.Unreadable?
      invariant selected == set j | 0 <= j < i && Selected(page[j], hitType, now) :: page[j].id
    {
      if page[i].annotation.Unreadable? {
        return Failure(UnreadableAnnotation);
      }
      if Selected(page[i], hitType, now) {
        selected := selected + {page[i].id};
      }
      i := i + 1;
    }
    var union := selected + m.sessionOpenHits;
    var ids := SetToSeq(union);
    r := Success(ids);
  }

  /** `list(s)` of a finite set: each element exactly once, in some order. */
  method SetToSeq(s: set<string>) returns (xs: seq<string>)
    ensures NoDuplicates(xs)
    ensures forall x :: x in xs <==> x in s
    ensures |xs| == |s|
  {
    xs := [];
    var rest := s;
    while rest != {}
      invariant rest <= s
      invariant forall x :: x in xs <==> x in s && x !in rest
      invariant NoDuplicates(xs)
      invariant |xs| + |rest| == |s|
      decreases |rest|
    {
      var x :| x in rest;
      xs := xs + [x];
      rest := rest - {x};
    }
  }

  /** The page of the unit test: one HIT of each kind, listed at `now`:
      fresh and of the queried type ("1"), of another type ("2"), marked
      for review ("3"), created an hour ago with a one-minute lifetime
      ("4"), and reviewed ("5"). Only the first and the third are open. */
  lemma OpenHitsOfTestPage(now: int)
    ensures var page := [
              Hit("1", Tagged("builder_normal"), Assignable, NotReviewed, now + 60, []),
              Hit("2", Tagged("not_builder_normal"), Assignable, NotReviewed, now + 60, []),
              Hit("3", Tagged("builder_normal"), Reviewable, MarkedForReview, now + 60, []),
              Hit("4", Tagged("builder_normal"), Assignable, NotReviewed, now - 3600 + 60, []),
              Hit("5", Tagged("builder_normal"), Unassignable, ReviewedAppropriate, now + 60, [])];
            OpenHitSet(page, "builder_normal", now, {}) == Success({"1", "3"})
  {
    var page := [
      Hit("1", Tagged("builder_normal"), Assignable, NotReviewed, now + 60, []),
      Hit("2", Tagged("not_builder_normal"), Assignable, NotReviewed, now + 60, []),
      Hit("3", Tagged("builder_normal"), Reviewable, MarkedForReview, now + 60, []),
      Hit("4", Tagged("builder_normal"), Assignable, NotReviewed, now - 3600 + 60, []),
      Hit("5", Tagged("builder_normal"), Unassignable, ReviewedAppropriate, now + 60, [])];
    assert "builder_normal" != "not_builder_normal" by {
      assert |"builder_normal"| != |"not_builder_normal"|;
    }
    assert "1" != "3";
    var r := OpenHitSet(page, "builder_normal", now, {});
    assert r.Success?;
    assert Selected(page[0], "builder_normal", now) && page[0].id == "1";
    assert Selected(page[2], "builder_normal", now) && page[2].id == "3";
    assert "1" in r.value && "3" in r.value;
    forall id | id in r.value
      ensures id == "1" || id == "3"
    {
      var i :| 0 <= i < |page| && page[i].id == id && Selected(page[i], "builder_normal", now);
      assert i == 0 || i == 2;
    }
    assert r.value == {"1", "3"};
  }

  /** A HIT created at `now` is selected for its type until it expires,
      and its id is reported as open whatever the marketplace lists. */
  lemma CreatedHitIsOpen(m: Manager, hitType: string, lifetime: int, now: int, newId: string,
                         qualificationTypeId: Option<string>, countries: Option<seq<string>>, later: int)
    requires later < now + lifetime
    ensures var (m', _) := CreateHit(m, hitType, lifetime, now, newId, qualificationTypeId, countries);
            && Selected(Last(m'.market.hits), hitType, later)
            && forall page :: OpenHitSet(page, hitType, later, m'.sessionOpenHits).Success? ==>
                 newId in OpenHitSet(page, hitType, later, m'.sessionOpenHits).value
  {
  }

  // ---------------------------------------------------------------------
  // Collecting and closing assignments

  /** The assignments of a HIT that are still waiting for approval. */
  function Submitted(market: Market, hitId: string): (subs: seq<Assignment>)
    ensures forall a :: a in subs <==>
              hitId in market.assignments && a in market.assignments[hitId] && (hitId, a.id) !in market.approved
  {
    if hitId in market.assignments then Unapproved(hitId, market.assignments[hitId], market.approved) else []
  }

  function Unapproved(hitId: string, all: seq<Assignment>, approved: set<(string, string)>): (subs: seq<Assignment>)
    ensures forall a :: a in subs <==> a in all && (hitId, a.id) !in approved
  {
    if |all| == 0 then []
    else
      var rest := Unapproved(hitId, all[1..], approved);
      assert forall a :: a in all <==> a == all[0] || a in all[1..];
      if (hitId, all[0].id) in approved then rest else [all[0]] + rest
  }

  /** What `complete_open_assignments` keeps of an assignment. */
  datatype AnswerRecord = AnswerRecord(workerId: string, answer: seq<AnswerField>, isQualified: bool)

  /** The record of an assignment, judged by the manager's verifier. */
  function RecordOf(verify: Verifier, a: Assignment): (rec: AnswerRecord)
    ensures rec.workerId == a.workerId && rec.answer == a.answer
    ensures rec.isQualified == verify(a.workerId, a.answer)
  {
    AnswerRecord(a.workerId, a.answer, verify(a.workerId, a.answer))
  }

  /** The page without the HITs carrying `hitId`, in order. */
  function WithoutHit(hits: seq<Hit>, hitId: string): (r: seq<Hit>)
    ensures forall h :: h in r <==> h in hits && h.id != hitId
    ensures |r| <= |hits|
  {
    if |hits| == 0 then []
    else
      var rest := WithoutHit(hits[1..], hitId);
      assert forall h :: h in hits <==> h == hits[0] || h in hits[1..];
      if hits[0].id == hitId then rest else [hits[0]] + rest
  }

  /** Removing a HIT a second time changes nothing. */
  lemma {:induction false} WithoutHitIdempotent(hits: seq<Hit>, hitId: string)
    ensures WithoutHit(WithoutHit(hits, hitId), hitId) == WithoutHit(hits, hitId)
  {
    if |hits| > 0 {
      WithoutHitIdempotent(hits[1..], hitId);
    }
  }

  /** `close_assignment`: the assignment is approved whatever its
      qualification, the HIT is deleted, and the HIT leaves the session. */
  function CloseAssignment(m: Manager, assignmentId: string, hitId: string, isQualified: bool): (m': Manager)
    ensures m'.market.approved == m.market.approved + {(hitId, assignmentId)}
    ensures forall h :: h in m'.market.hits <==> h in m.market.hits && h.id != hitId
    ensures m'.sessionOpenHits == m.sessionOpenHits - {hitId}
    ensures m'.market.assignments == m.market.assignments
    ensures m'.verify == m.verify && m'.maxHits == m.maxHits
  {
    // `isQualified` is not consulted: every assignment is approved
    var market := m.market.(approved := m.market.approved + {(hitId, assignmentId)},
                            hits := WithoutHit(m.market.hits, hitId));
    m.(market := market, sessionOpenHits := m.sessionOpenHits - {hitId})
  }

  /** Closing does not depend on whether the answer qualified. */
  lemma CloseIgnoresQualification(m: Manager, assignmentId: string, hitId: string)
    ensures CloseAssignment(m, assignmentId, hitId, true).market == CloseAssignment(m, assignmentId, hitId, false).market
    ensures CloseAssignment(m, assignmentId, hitId, true).sessionOpenHits
            == CloseAssignment(m, assignmentId, hitId, false).sessionOpenHits
  {
  }

  /** The inner loop of `complete_open_assignments` over the assignments
      of one HIT: each one is recorded under the HIT id, overwriting the
      previous record, and closed. */
  function ProcessAssignments(m: Manager, hitId: string, subs: seq<Assignment>, results: map<string, AnswerRecord>)
    : (r: (Manager, map<string, AnswerRecord>))
    ensures |subs| == 0 ==> r.0 == m && r.1 == results
    ensures |subs| > 0 ==> r.1 == results[hitId := RecordOf(m.verify, Last(subs))]
    ensures r.0.market.approved == m.market.approved + set a | a in subs :: (hitId, a.id)
    ensures |subs| > 0 ==> forall h :: h in r.0.market.hits <==> h in m.market.hits && h.id != hitId
    ensures |subs| > 0 ==> r.0.sessionOpenHits == m.sessionOpenHits - {hitId}
    ensures r.0.market.assignments == m.market.assignments
    ensures r.0.verify == m.verify && r.0.maxHits == m.maxHits
    decreases |subs|
  {
    if |subs| == 0 then (m, results)
    else
      var rec := RecordOf(m.verify, subs[0]);
      var closed := CloseAssignment(m, subs[0].id, hitId, rec.isQualified);
      assert forall a :: a in subs <==> a == subs[0] || a in subs[1..];
      ProcessAssignments(closed, hitId, subs[1..], results[hitId := rec])
  }

  /** The HITs among `hitIds` that have assignments waiting. */
  function WithSubmissions(market: Market, hitIds: seq<string>): set<string> {
    set h | h in hitIds && |Submitted(market, h)| > 0
  }

  /** One iteration of the outer loop of `complete_open_assignments`: a
      HIT without waiting assignments is skipped; otherwise the record of
      its last assignment is kept, all of them are approved, and the HIT is
      closed. No other HIT's waiting assignments change. */
  function CompleteHit(m: Manager, hitId: string, results: map<string, AnswerRecord>)
    : (r: (Manager, map<string, AnswerRecord>))
    ensures |Submitted(m.market, hitId)| == 0 ==> r.0 == m && r.1 == results
    ensures |Submitted(m.market, hitId)| > 0 ==>
              && r.1 == results[hitId := RecordOf(m.verify, Last(Submitted(m.market, hitId)))]
              && r.0.sessionOpenHits == m.sessionOpenHits - {hitId}
              && forall h :: h in r.0.market.hits <==> h in m.market.hits && h.id != hitId
    ensures |Submitted(r.0.market, hitId)| == 0
    ensures forall h :: h != hitId ==> Submitted(r.0.market, h) == Submitted(m.market, h)
    ensures r.0.market.assignments == m.market.assignments
    ensures r.0.verify == m.verify && r.0.maxHits == m.maxHits
  {
    var subs := Submitted(m.market, hitId);
    if |subs| == 0 then (m, results)
    else
      var r := ProcessAssignments(m, hitId, subs, results);
      SubmittedAfterApproval(m.market, r.0.market, hitId);
      r
  }

  /** Once every waiting assignment of a HIT is approved, none is waiting,
      and the other HITs' waiting assignments are as they were. */
  lemma SubmittedAfterApproval(before: Market, after: Market, hitId: string)
    requires after.assignments == before.assignments
    requires after.approved == before.approved + set a | a in Submitted(before, hitId) :: (hitId, a.id)
    ensures |Submitted(after, hitId)| == 0
    ensures forall h :: h != hitId ==> Submitted(after, h) == Submitted(before, h)
  {
    forall h | h != hitId
      ensures Submitted(after, h) == Submitted(before, h)
    {
      if h in before.assignments {
        UnapprovedIgnoresOtherHits(h, before.assignments[h], before.approved, after.approved);
      }
    }
    if hitId in before.assignments {
      UnapprovedAllApproved(hitId, before.assignments[hitId], after.approved);
    }
  }

  /** Nothing is waiting once every assignment is approved. */
  lemma {:induction false} UnapprovedAllApproved(hitId: string, all: seq<Assignment>, approved: set<(string, string)>)
    requires forall a :: a in all ==> (hitId, a.id) in approved
    ensures Unapproved(hitId, all, approved) == []
  {
    if |all| > 0 {
      UnapprovedAllApproved(hitId, all[1..], approved);
    }
  }

  /** After the first HIT is handled, the HITs left with waiting
      assignments are the earlier ones less the first. */
  lemma WithSubmissionsStep(before: Market, after: Market, hitIds: seq<string>)
    requires |hitIds| > 0
    requires |Submitted(after, hitIds[0])| == 0
    requires forall h :: h != hitIds[0] ==> Submitted(after, h) == Submitted(before, h)
    ensures WithSubmissions(before, hitIds)
            == WithSubmissions(after, hitIds[1..])
               + (if |Submitted(before, hitIds[0])| > 0 then {hitIds[0]} else {})
    ensures hitIds[0] !in WithSubmissions(after, hitIds[1..])
  {
    assert forall x :: x in hitIds <==> x == hitIds[0] || x in hitIds[1..];
  }

  /** `complete_open_assignments` from the `hitIds` still to visit, with
      the records collected so far. The submitted assignments themselves
      stay as they are; only approvals and the listing change. */
  function CompleteFrom(m: Manager, hitIds: seq<string>, results: map<string, AnswerRecord>)
    : (r: (Manager, map<string, AnswerRecord>))
    ensures r.0.market.assignments == m.market.assignments
    ensures r.0.verify == m.verify && r.0.maxHits == m.maxHits
    decreases |hitIds|
  {
    if |hitIds| == 0 then (m, results)
    else
      var first := CompleteHit(m, hitIds[0], results);
      CompleteFrom(first.0, hitIds[1..], first.1)
  }

  /** A record is kept for exactly the HITs that had waiting assignments,
      on top of the records collected before. */
  lemma {:induction false} CompleteFromKeys(m: Manager, hitIds: seq<string>, results: map<string, AnswerRecord>)
    ensures CompleteFrom(m, hitIds, results).1.Keys == results.Keys + WithSubmissions(m.market, hitIds)
    decreases |hitIds|
  {
    if |hitIds| > 0 {
      var first := CompleteHit(m, hitIds[0], results);
      WithSubmissionsStep(m.market, first.0.market, hitIds);
      CompleteFromKeys(first.0, hitIds[1..], first.1);
    }
  }

  /** The record kept for a HIT with waiting assignments is that of the
      last one; earlier records of other HITs stay. */
  lemma {:induction false} CompleteFromRecords(m: Manager, hitIds: seq<string>, results: map<string, AnswerRecord>)
    ensures var r := CompleteFrom(m, hitIds, results);
            && (forall h :: h in WithSubmissions(m.market, hitIds) ==>
                  h in r.1 && r.1[h] == RecordOf(m.verify, Last(Submitted(m.market, h))))
            && (forall h :: h in results && h !in WithSubmissions(m.market, hitIds) ==>
                  h in r.1 && r.1[h] == results[h])
    decreases |hitIds|
  {
    if |hitIds| > 0 {
      var first := CompleteHit(m, hitIds[0], results);
      WithSubmissionsStep(m.market, first.0.market, hitIds);
      CompleteFromKeys(first.0, hitIds[1..], first.1);
      CompleteFromRecords(first.0, hitIds[1..], first.1);
    }
  }

  /** Exactly the HITs that had waiting assignments leave the session
      and the listing. */
  lemma {:induction false} CompleteFromCloses(m: Manager, hitIds: seq<string>, results: map<string, AnswerRecord>)
    ensures var r := CompleteFrom(m, hitIds, results);
            && r.0.sessionOpenHits == m.sessionOpenHits - WithSubmissions(m.market, hitIds)
            && (forall h :: h in r.0.market.hits ==> h in m.market.hits && h.id !in WithSubmissions(m.market, hitIds))
            && (forall h :: h in m.market.hits && h.id !in WithSubmissions(m.market, hitIds) ==> h in r.0.market.hits)
    decreases |hitIds|
  {
    if |hitIds| > 0 {
      var first := CompleteHit(m, hitIds[0], results);
      WithSubmissionsStep(m.market, first.0.market, hitIds);
      CompleteFromCloses(first.0, hitIds[1..], first.1);
    }
  }

  /** The HITs that had waiting assignments have none left; the others'
      waiting assignments are untouched. */
  lemma {:induction false} CompleteFromApproves(m: Manager, hitIds: seq<string>, results: map<string, AnswerRecord>)
    ensures var r := CompleteFrom(m, hitIds, results);
            && (forall h :: h in WithSubmissions(m.market, hitIds) ==> |Submitted(r.0.market, h)| == 0)
            && (forall h :: h !in WithSubmissions(m.market, hitIds) ==> Submitted(r.0.market, h) == Submitted(m.market, h))
    decreases |hitIds|
  {
    if |hitIds| > 0 {
      var first := CompleteHit(m, hitIds[0], results);
      WithSubmissionsStep(m.market, first.0.market, hitIds);
      CompleteFromApproves(first.0, hitIds[1..], first.1);
    }
  }

  /** When none of the HITs to visit has waiting assignments, the manager
      is left exactly as it was. */
  lemma {:induction false} CompleteFromUnchanged(m: Manager, hitIds: seq<string>, results: map<string, AnswerRecord>)
    ensures |WithSubmissions(m.market, hitIds)| == 0 ==> CompleteFrom(m, hitIds, results) == (m, results)
    decreases |hitIds|
  {
    if |hitIds| > 0 && |WithSubmissions(m.market, hitIds)| == 0 {
      assert hitIds[0] !in WithSubmissions(m.market, hitIds);
      assert WithSubmissions(m.market, hitIds[1..]) <= WithSubmissions(m.market, hitIds);
      CompleteFromUnchanged(m, hitIds[1..], results);
    }
  }

  /** Approvals for another HIT do not change which of a HIT's assignments
      are waiting. */
  lemma {:induction false} UnapprovedIgnoresOtherHits(hitId: string, all: seq<Assignment>,
                                                      before: set<(string, string)>, after: set<(string, string)>)
    requires forall id :: (hitId, id) in after <==> (hitId, id) in before
    ensures Unapproved(hitId, all, after) == Unapproved(hitId, all, before)
  {
    if |all| > 0 {
      UnapprovedIgnoresOtherHits(hitId, all[1..], before, after);
    }
  }

  /** `complete_open_assignments(hit_ids)`. */
  function CompleteOpenAssignments(m: Manager, hitIds: seq<string>): (r: (Manager, map<string, AnswerRecord>))
    ensures r.1.Keys == WithSubmissions(m.market, hitIds)
    ensures forall h :: h in r.1 ==> r.1[h] == RecordOf(m.verify, Last(Submitted(m.market, h)))
    ensures forall h :: h in r.1 ==> r.1[h].isQualified == m.verify(r.1[h].workerId, r.1[h].answer)
    ensures r.0.sessionOpenHits == m.sessionOpenHits - r.1.Keys
    ensures forall h :: h in r.1 ==> h !in r.0.sessionOpenHits && |Submitted(r.0.market, h)| == 0
    ensures forall h :: h in r.0.market.hits ==> h in m.market.hits && h.id !in r.1
    ensures forall h :: h in m.market.hits && h.id !in r.1 ==> h in r.0.market.hits
    ensures forall h :: h !in r.1 ==> Submitted(r.0.market, h) == Submitted(m.market, h)
    ensures r.0.market.assignments == m.market.assignments && r.0.verify == m.verify && r.0.maxHits == m.maxHits
    ensures |r.1| == 0 ==> r.0 == m
  {
    CompleteFromUnchanged(m, hitIds, map[]);
    CompleteFromKeys(m, hitIds, map[]);
    CompleteFromRecords(m, hitIds, map[]);
    CompleteFromCloses(m, hitIds, map[]);
    CompleteFromApproves(m, hitIds, map[]);
    CompleteFrom(m, hitIds, map[])
  }
}

=== FILE: iglu_storage.dfy ===
/** The older single-turn storage: its own small turn record, its reading
    of game indices, and its context handling. Choosing starting worlds is
    the same code as in the newer storage (StartWorlds), and the
    with-block behaves as GameStorage.With. */
module IgluStorage {
  import opened Common
  import opened Strings
  import opened GameIds
  import opened DatasetTurns
  import opened GameStorage
  import opened SingleTurnStorage

  /** The turn of the older storage: no HIT or result fields, a turn type
      that stays None, and an initially empty list of open HITs. */
  datatype IgluTurn = IgluTurn(
    gameId: string,
    turnType: Option<string>,
    builderDataPathInBlob: string,
    initialGameIdBlob: string,
    openHits: seq<string>,
    startingWorldId: string,
    screenshotStepView: string,
    screenshotStepInBlob: string)

  /** `Turn.__init__` of the older storage. */
  function NewIgluTurn(gameId: string, startingWorldId: string, builderDataPathInBlob: string,
                       initialGameIdBlob: string, screenshotStepView: string, screenshotStepInBlob: string)
    : (t: IgluTurn)
    ensures t.turnType.None? && t.openHits == []
    ensures t.gameId == gameId && t.startingWorldId == startingWorldId
    ensures t.builderDataPathInBlob == builderDataPathInBlob && t.initialGameIdBlob == initialGameIdBlob
    ensures t.screenshotStepView == screenshotStepView && t.screenshotStepInBlob == screenshotStepInBlob
  {
    IgluTurn(gameId, None, builderDataPathInBlob, initialGameIdBlob, [], startingWorldId,
             screenshotStepView, screenshotStepInBlob)
  }

  /** `get_open_turn`: the first three segments of the world id become the
      data path, the game blob and the screenshot step; fewer than three
      segments raise. */
  function GetOpenTurn(gameId: string, startingWorldId: string): (r: Result<IgluTurn>)
    ensures r.Success? <==> |Split(startingWorldId, '/')| >= 3
    ensures r.Success? ==>
              var parts := Split(startingWorldId, '/');
              && r.value.builderDataPathInBlob == parts[0]
              && r.value.initialGameIdBlob == parts[1]
              && r.value.screenshotStepInBlob == parts[2]
              && r.value.screenshotStepView == parts[2] + "_north"
              && r.value.startingWorldId == startingWorldId
              && r.value.gameId == gameId
              && r.value.turnType.None? && r.value.openHits == []
  {
    var parts := Split(startingWorldId, '/');
    if |parts| < 3 then Failure(IndexError)
    else Success(NewIgluTurn(gameId, startingWorldId, parts[0], parts[1], parts[2] + "_north", parts[2]))
  }

  /** On a world id `a/b/c` of slash-free parts the turn gets exactly those
      parts. */
  lemma GetOpenTurnOfPath(gameId: string, a: string, b: string, c: string)
    requires '/' !in a && '/' !in b && '/' !in c
    ensures var r := GetOpenTurn(gameId, Join([a, b, c], '/'));
            && r.Success?
            && r.value.builderDataPathInBlob == a
            && r.value.initialGameIdBlob == b
            && r.value.screenshotStepInBlob == c
            && r.value.screenshotStepView == c + "_north"
  {
    SplitJoin([a, b, c], '/');
  }

  /** The index of a game id in the older storage: the integer in the
      second dash-separated field, or the whole id as an integer; anything
      else raises. */
  function IgluIndex(id: string): (r: Result<nat>)
    ensures '-' in id ==> r == (match ParseNat(Split(id, '-')[1])
                                case Some(n) => Success(n)
                                case None => Failure(NotAnInteger(Split(id, '-')[1])))
    ensures '-' !in id ==> (r.Success? <==> ParseNat(id).Some?)
    ensures '-' !in id && r.Success? ==> r.value == ParseNat(id).value
  {
    var text := if '-' in id then Split(id, '-')[1] else id;
    match ParseNat(text)
    case Some(n) => Success(n)
    case None => Failure(NotAnInteger(text))
  }

  /** On ids `game-<n>` both storages read the same index. */
  lemma IgluIndexAgrees(n: nat)
    ensures IgluIndex(GameId(n)) == IndexFromGameId(GameId(n)) == Success(n)
  {
    IndexOfGameId(n);
    var digits := NatToString(n);
    assert GameId(n) == Join(["game", digits], '-');
    SplitJoin(["game", digits], '-');
  }

  /** Where the two readings part on ids with more than one dash: the
      older one takes the second field, the newer the last. */
  lemma IgluIndexDiffersOnTwoDashes()
    ensures IgluIndex("game-1-2") == Success(1)
    ensures IndexFromGameId("game-1-2") == Success(2)
  {
    var parts := ["game", "1", "2"];
    assert "game-1-2" == Join(parts, '-');
    SplitJoin(parts, '-');
    assert Split("game-1-2", '-') == parts;
    assert NatToString(1) == "1" && NatToString(2) == "2";
    ParseNatToString(1);
    ParseNatToString(2);
  }

  /** ...and on a non-numeric id without a dash: the newer one reads 0,
      the older one raises. */
  lemma IgluIndexDiffersWithoutDash()
    ensures IgluIndex("game").Failure?
    ensures IndexFromGameId("game") == Success(0)
  {
    assert '-' !in "game";
    assert !IsDigit("game"[0]);
    assert ParseNat("game").None?;
  }

  /** The filter of the older storage's index query. */
  const QueriedTurnType := "builder-normal"

  /** `get_last_game_index` as written: it has no guard, so outside a
      with-block the lookup on the missing table client raises. */
  function GetLastGameIndexAsWritten(s: Storage, answer: seq<Key>): (r: Result<nat>)
    requires IsQueryAnswer(s.table, HitType, QueriedTurnType, answer)
    ensures !s.hasTableClient ==> r == Failure(NoTableClient)
    ensures s.hasTableClient ==> r == MaxIndex(GameIdsOf(answer), IgluIndex)
  {
    if !s.hasTableClient then Failure(NoTableClient)
    else MaxIndex(GameIdsOf(answer), IgluIndex)
  }

  /** Its unit test expects the "used outside a with statement" error
      there, which the as-written code never raises. */
  lemma AsWrittenRaisesWrongErrorOutsideWith(s: Storage, answer: seq<Key>)
    requires IsQueryAnswer(s.table, HitType, QueriedTurnType, answer)
    requires !s.hasTableClient
    ensures GetLastGameIndexAsWritten(s, answer) != Failure(OutsideContext)
  {
  }

  /** `get_last_game_index` with the guard the other storage methods
      have: outside a with-block it raises the context error; inside, 0
      for no matching rows, else the largest index, raising if an id
      cannot be read. */
  function GetLastGameIndex(s: Storage, answer: seq<Key>): (r: Result<nat>)
    requires IsQueryAnswer(s.table, HitType, QueriedTurnType, answer)
    ensures !s.hasTableClient ==> r == Failure(OutsideContext)
    ensures s.hasTableClient && (forall k :: !Matches(s.table, k, HitType, QueriedTurnType)) ==> r == Success(0)
    ensures s.hasTableClient ==>
              (r.Success? <==> forall k :: Matches(s.table, k, HitType, QueriedTurnType) ==> IgluIndex(k.0).Success?)
    ensures r.Success? ==> forall k :: Matches(s.table, k, HitType, QueriedTurnType) ==>
              IgluIndex(k.0).Success? && IgluIndex(k.0).value <= r.value
    ensures r.Success? && r.value > 0 ==>
              exists k :: Matches(s.table, k, HitType, QueriedTurnType) && IgluIndex(k.0) == Success(r.value)
  {
    if !s.hasTableClient then Failure(OutsideContext)
    else
      var ids := GameIdsOf(answer);
      assert forall k :: Matches(s.table, k, HitType, QueriedTurnType) ==>
               exists i :: 0 <= i < |answer| && answer[i] == k;
      MaxIndex(ids, IgluIndex)
  }

  /** `with storage: raise e` raises `e`, and the client is gone
      afterwards; inside the block there is a client. */
  lemma WithPropagatesRaise(s: Storage, e: Error)
    ensures var r := With<()>(s, (inside: Storage) => (inside, Failure(e)));
            && r.1 == Failure(e)
            && !r.0.hasTableClient
    ensures Enter(s).hasTableClient
  {
  }
}

=== FILE: singleturn_storage.dfy ===
/** The single-turn game storage: numbering new games after the largest
    stored game index, and turning freshly chosen starting worlds into open
    turns. */
module SingleTurnStorage {
  import opened Common
  import opened Strings
  import opened Turns
  import opened DatasetTurns
  import opened GameIds
  import opened GameStorage
  import opened StartWorlds

  /** The turn type `get_last_game_index` filters on by default. */
  const DefaultTurnType := "builder-normal"

  /** The partition keys (game ids) of the listed rows. */
  function GameIdsOf(answer: seq<Key>): (ids: seq<string>)
    ensures |ids| == |answer|
    ensures forall i :: 0 <= i < |answer| ==> ids[i] == answer[i].0
  {
    seq(|answer|, i requires 0 <= i < |answer| => answer[i].0)
  }

  /** `get_last_game_index`: outside a with-block it raises; otherwise 0
      when no row has the turn type, else the largest index read from the
      game ids of those rows, raising if one of them cannot be read. */
  function GetLastGameIndex(s: Storage, turnType: string, answer: seq<Key>): (r: Result<nat>)
    requires IsQueryAnswer(s.table, HitType, turnType, answer)
    ensures !s.hasTableClient ==> r == Failure(OutsideContext)
    ensures s.hasTableClient && (forall k :: !Matches(s.table, k, HitType, turnType)) ==> r == Success(0)
    ensures s.hasTableClient ==>
              (r.Success? <==> forall k :: Matches(s.table, k, HitType, turnType) ==>
                                 IndexFromGameId(k.0).Success?)
    ensures r.Success? ==> forall k :: Matches(s.table, k, HitType, turnType) ==>
              IndexFromGameId(k.0).Success? && IndexFromGameId(k.0).value <= r.value
    ensures r.Success? && r.value > 0 ==>
              exists k :: Matches(s.table, k, HitType, turnType) && IndexFromGameId(k.0) == Success(r.value)
  {
    if !s.hasTableClient then Failure(OutsideContext)
    else
      var ids := GameIdsOf(answer);
      var r := MaxIndex(ids, IndexFromGameId);
      assert forall k :: Matches(s.table, k, HitType, turnType) ==>
               exists i :: 0 <= i < |answer| && answer[i] == k;
      if |answer| == 0 then
        assert forall k :: !Matches(s.table, k, HitType, turnType);
        r
      else
        r
  }

  /** The structure id encoded in a blob name: the second dash-separated
      field, or the whole name when it has no dash. */
  function StructureIdOf(blobName: string): string {
    if '-' in blobName then Split(blobName, '-')[1] else blobName
  }

  /** A blob name `<number>-<structure>` names the structure after its
      dash; a name without a dash is the structure id itself. */
  lemma StructureIdOfBlobName(number: string, structure: string)
    requires '-' !in number && '-' !in structure
    ensures StructureIdOf(number + "-" + structure) == structure
    ensures StructureIdOf(number) == number
  {
    SplitJoin([number, structure], '-');
    assert Join([number, structure], '-') == number + "-" + structure;
  }

  /** A world path long enough for `get_turns_from_open_game`. */
  predicate HasThreeSegments(path: string) {
    |Split(path, '/')| >= 3
  }

  /** `get_turns_from_open_game`: a path with fewer than three segments
      raises; otherwise the first three segments become the blob path, blob
      name and step of a new open turn. */
  function TurnFromOpenGame(gameId: string, turnType: string, startingWorldPath: string): (r: Result<DatasetTurn>)
    ensures r.Success? <==> HasThreeSegments(startingWorldPath)
    ensures r.Success? ==>
              var parts := Split(startingWorldPath, '/');
              && r.value.base == NewTurn(gameId, turnType, Str(StructureIdOf(parts[1])))
              && r.value.startingWorldBlobPath == parts[0]
              && r.value.startingWorldBlobName == parts[1]
              && r.value.startingStep == parts[2]
              && r.value.ScreenshotStepView() == parts[2] + "_north"
  {
    var parts := Split(startingWorldPath, '/');
    if |parts| < 3 then Failure(IndexError)
    else Success(NewDatasetTurn(gameId, turnType, Str(StructureIdOf(parts[1])), parts[0], parts[1], parts[2]))
  }

  /** On a path `p/n/s` built from slash-free parts, the turn gets exactly
      those parts, and the structure id is read out of the blob name `n`. */
  lemma TurnFromOpenGamePath(gameId: string, turnType: string, p: string, n: string, step: string)
    requires '/' !in p && '/' !in n && '/' !in step
    ensures var r := TurnFromOpenGame(gameId, turnType, Join([p, n, step], '/'));
            && r.Success?
            && r.value.startingWorldBlobPath == p
            && r.value.startingWorldBlobName == n
            && r.value.startingStep == step
            && r.value.ScreenshotStepView() == step + "_north"
            && r.value.base.initializedStructureId == Str(StructureIdOf(n))
  {
    SplitJoin([p, n, step], '/');
  }

  /** The ids `game_id_from_game_index` gives the `n` games numbered
      from `next` on. */
  function ConsecutiveGameIds(next: nat, n: nat): (ids: seq<string>)
    ensures |ids| == n
    ensures forall i :: 0 <= i < n ==> ids[i] == GameId(next + i)
    decreases n
  {
    if n == 0 then []
    else
      IndexOfGameId(next);
      var rest := ConsecutiveGameIds(next + 1, n - 1);
      [GameIdFromGameIndex(Index(next))] + rest
  }

  /** The open turns for `worlds`, the i-th under the i-th id; the first
      world whose path is too short raises. */
  function OpenTurnsFor(ids: seq<string>, turnType: string, worlds: seq<string>): (r: Result<seq<DatasetTurn>>)
    requires |ids| == |worlds|
    ensures r.Success? <==> forall i :: 0 <= i < |worlds| ==> HasThreeSegments(worlds[i])
    ensures r.Success? ==> |r.value| == |worlds|
    ensures r.Success? ==> forall i :: 0 <= i < |worlds| ==>
              r.value[i] == TurnFromOpenGame(ids[i], turnType, worlds[i]).value
  {
    if |worlds| == 0 then Success([])
    else
      var first := TurnFromOpenGame(ids[0], turnType, worlds[0]);
      var rest := OpenTurnsFor(ids[1..], turnType, worlds[1..]);
      if first.Failure? then Failure(first.error)
      else if rest.Failure? then Failure(rest.error)
      else
        var r := [first.value] + rest.value;
        assert forall i :: 1 <= i < |worlds| ==> r[i] == rest.value[i - 1];
        Success(r)
  }

  /** The turns carry game numbers last + 1, last + 2, ... in order, have
      the given type, and are open. */
  predicate NumberedAfter(turns: seq<DatasetTurn>, last: nat, turnType: string) {
    forall i :: 0 <= i < |turns| ==>
      turns[i].base.gameId == GameId(last + 1 + i) && turns[i].base.turnType == turnType && IsOpen(turns[i].base)
  }

  /** No two turns share a game id. */
  predicate DistinctGameIds(turns: seq<DatasetTurn>) {
    forall i, j :: 0 <= i < j < |turns| ==> turns[i].base.gameId != turns[j].base.gameId
  }

  /** No turn reuses the game id of a stored row of the given type. */
  ghost predicate FreshIn(turns: seq<DatasetTurn>, table: Table, storedType: string) {
    forall i, k :: 0 <= i < |turns| && Matches(table, k, HitType, storedType) ==> turns[i].base.gameId != k.0
  }

  /** Each turn built for `worlds` is open, under its id and type. */
  lemma OpenTurnsForAreOpen(ids: seq<string>, turnType: string, worlds: seq<string>)
    requires |ids| == |worlds|
    ensures var r := OpenTurnsFor(ids, turnType, worlds);
            r.Success? ==> forall i :: 0 <= i < |worlds| ==>
              r.value[i].base.gameId == ids[i] && r.value[i].base.turnType == turnType && IsOpen(r.value[i].base)
  {
    var r := OpenTurnsFor(ids, turnType, worlds);
    if r.Success? {
      forall i | 0 <= i < |worlds|
        ensures r.value[i].base.gameId == ids[i] && r.value[i].base.turnType == turnType && IsOpen(r.value[i].base)
      {
        var t := TurnFromOpenGame(ids[i], turnType, worlds[i]);
        assert t.Success? && r.value[i] == t.value;
      }
    }
  }

  /** `get_open_turns`: the last index is read (for the default turn type,
      whatever `turnType` is), `count` worlds are chosen, and the i-th turn
      is the open turn of the i-th world under game number last + 1 + i. */
  function GetOpenTurns(s: Storage, turnType: string, count: int, blobs: seq<string>,
                        shuffle: seq<nat>, answer: seq<Key>): (r: Result<seq<DatasetTurn>>)
    requires IsQueryAnswer(s.table, HitType, DefaultTurnType, answer)
    requires IsShuffle(shuffle, |Candidates(blobs)|)
    ensures r.Success? ==>
              && GetLastGameIndex(s, DefaultTurnType, answer).Success?
              && SelectStartWorldsIds(s.hasTableClient, count, blobs, shuffle).Success?
              && |r.value| == count
    ensures r.Success? ==> NumberedAfter(r.value, GetLastGameIndex(s, DefaultTurnType, answer).value, turnType)
    ensures r.Success? ==> DistinctGameIds(r.value)
    ensures r.Success? ==> FreshIn(r.value, s.table, DefaultTurnType)
    ensures r.Success? <==>
              && GetLastGameIndex(s, DefaultTurnType, answer).Success?
              && SelectStartWorldsIds(s.hasTableClient, count, blobs, shuffle).Success?
              && var worlds := SelectStartWorldsIds(s.hasTableClient, count, blobs, shuffle).value;
                 forall i :: 0 <= i < |worlds| ==> HasThreeSegments(worlds[i])
  {
    var last :- GetLastGameIndex(s, DefaultTurnType, answer);
    var worlds :- SelectStartWorldsIds(s.hasTableClient, count, blobs, shuffle);
    if |worlds| != count then
      // the source returns the integer 1 here, which its caller cannot use
      Failure(NotATurnList)
    else
      var turns := OpenTurnsFor(ConsecutiveGameIds(last + 1, count), turnType, worlds);
      if turns.Success? then
        OpenTurnsAfterLast(s, answer, last, turnType, worlds);
        turns
      else
        turns
  }

  /** The turns built after the last stored index are numbered from it,
      distinct, and fresh against every stored game of the default type. */
  lemma OpenTurnsAfterLast(s: Storage, answer: seq<Key>, last: nat, turnType: string, worlds: seq<string>)
    requires IsQueryAnswer(s.table, HitType, DefaultTurnType, answer)
    requires GetLastGameIndex(s, DefaultTurnType, answer) == Success(last)
    requires OpenTurnsFor(ConsecutiveGameIds(last + 1, |worlds|), turnType, worlds).Success?
    ensures var turns := OpenTurnsFor(ConsecutiveGameIds(last + 1, |worlds|), turnType, worlds).value;
            NumberedAfter(turns, last, turnType) && DistinctGameIds(turns) && FreshIn(turns, s.table, DefaultTurnType)
  {
    var turns := OpenTurnsFor(ConsecutiveGameIds(last + 1, |worlds|), turnType, worlds).value;
    NumberedFrom(last, ConsecutiveGameIds(last + 1, |worlds|), turnType, worlds);
    NumbersAboveAreFresh(last, turns, turnType);
    FreshAbove(turns, s.table, last, turnType);
  }

  /** Turns numbered above every stored index reuse no stored game id. */
  lemma FreshAbove(turns: seq<DatasetTurn>, table: Table, last: nat, turnType: string)
    requires NumberedAfter(turns, last, turnType)
    requires forall k :: Matches(table, k, HitType, DefaultTurnType) ==>
               IndexFromGameId(k.0).Success? && IndexFromGameId(k.0).value <= last
    ensures FreshIn(turns, table, DefaultTurnType)
  {
    forall i, k | 0 <= i < |turns| && Matches(table, k, HitType, DefaultTurnType)
      ensures turns[i].base.gameId != k.0
    {
      GameIdAbove(last + 1 + i, k.0);
    }
  }

  /** The id of a game numbered above an id's index is a different id. */
  lemma GameIdAbove(n: nat, id: string)
    requires IndexFromGameId(id).Success? && IndexFromGameId(id).value < n
    ensures GameId(n) != id
  {
    IndexOfGameId(n);
  }

  /** Turns built for the ids of games last + 1, last + 2, ... carry those
      game numbers in order, have the given type and are open. */
  lemma NumberedFrom(last: nat, ids: seq<string>, turnType: string, worlds: seq<string>)
    requires |ids| == |worlds|
    requires forall i :: 0 <= i < |ids| ==> ids[i] == GameId(last + 1 + i)
    ensures var r := OpenTurnsFor(ids, turnType, worlds);
            r.Success? ==> NumberedAfter(r.value, last, turnType)
  {
    var r := OpenTurnsFor(ids, turnType, worlds);
    if r.Success? {
      OpenTurnsForAreOpen(ids, turnType, worlds);
    }
  }

  /** Turns numbered last + 1, last + 2, ... have pairwise distinct game
      ids. */
  lemma NumbersAboveAreFresh(last: nat, turns: seq<DatasetTurn>, turnType: string)
    requires NumberedAfter(turns, last, turnType)
    ensures DistinctGameIds(turns)
  {
    forall i, j | 0 <= i < j < |turns|
      ensures turns[i].base.gameId != turns[j].base.gameId
    {
      GameIdInjective(last + 1 + i, last + 1 + j);
    }
  }

  /** A row the worker's answer was accepted for. */
  predicate IsQualifiedRow(row: Row) {
    IsHITQualified in row && row[IsHITQualified] == Bool(true)
  }

  /** `retrieve_turn_entity` of the single-turn storage: like the shared
      one, but with `qualifiedValue` only rows whose IsHITQualified is true
      are considered. */
  method RetrieveTurnEntity(s: Storage, key: string, column: string, qualifiedValue: bool)
    returns (r: Result<Option<Row>>)
    ensures r.Failure? <==> !s.hasTableClient
    ensures r.Success? && r.value.Some? ==>
              exists k :: && Matches(s.table, k, column, key)
                          && (qualifiedValue ==> IsQualifiedRow(s.table[k]))
                          && s.table[k] == r.value.value
    ensures r.Success? && r.value.None? ==>
              forall k :: Matches(s.table, k, column, key) ==> qualifiedValue && !IsQualifiedRow(s.table[k])
  {
    if !s.hasTableClient {
      return Failure(NoTableClient);
    }
    if k :| k in s.table && Matches(s.table, k, column, key) && (qualifiedValue ==> IsQualifiedRow(s.table[k])) {
      r := Success(Some(s.table[k]));
    } else {
      r := Success(None);
    }
  }
}

=== FILE: start_worlds.dfy ===
/** Choosing the starting worlds of new turns: the blobs under the
    configured prefix that are not screenshots, sampled without
    replacement. Both storage variants do this in the same way. */
module StartWorlds {
  import opened Common
  import opened Strings

  /** The blob names that are not ".png" screenshots, in listing order. */
  function Candidates(blobs: seq<string>): (pool: seq<string>)
    ensures |pool| <= |blobs|
    ensures forall i :: 0 <= i < |pool| ==> pool[i] in blobs && !Contains(pool[i], ".png")
    ensures forall b :: b in blobs && !Contains(b, ".png") ==> b in pool
  {
    if |blobs| == 0 then []
    else
      var rest := Candidates(blobs[1..]);
      assert forall b :: b in blobs[1..] ==> b in blobs;
      assert forall b :: b in blobs ==> b == blobs[0] || b in blobs[1..];
      if Contains(blobs[0], ".png") then rest else [blobs[0]] + rest
  }

  /** Filtering keeps names distinct. */
  lemma {:induction false} CandidatesNoDuplicates(blobs: seq<string>)
    requires NoDuplicates(blobs)
    ensures NoDuplicates(Candidates(blobs))
  {
    if |blobs| > 0 {
      CandidatesNoDuplicates(blobs[1..]);
      assert blobs[0] !in blobs[1..];
    }
  }

  /** The random source, as one shuffle of the `n` pool positions:
      `random.sample` returns the items at the first `count` of them. */
  predicate IsShuffle(shuffle: seq<nat>, n: nat) {
    && |shuffle| == n
    && (forall i :: 0 <= i < n ==> shuffle[i] < n)
    && NoDuplicates(shuffle)
  }

  /** `random.sample(pool, count)`; asking for more items than the pool
      holds raises. */
  function Sample(pool: seq<string>, count: int, shuffle: seq<nat>): (r: Result<seq<string>>)
    requires IsShuffle(shuffle, |pool|)
    ensures r.Success? <==> 0 <= count <= |pool|
    ensures r.Success? ==> |r.value| == count
    ensures r.Success? ==> forall i :: 0 <= i < count ==> r.value[i] == pool[shuffle[i]]
  {
    if count < 0 || count > |pool| then Failure(SampleLargerThanPopulation)
    else Success(seq(count, i requires 0 <= i < count => pool[shuffle[i]]))
  }

  /** `select_start_worlds_ids`: refused without a table client or for a
      non-positive count; otherwise `gameCount` non-screenshot names taken
      from distinct positions of the listing. */
  function SelectStartWorldsIds(hasTableClient: bool, gameCount: int, blobs: seq<string>, shuffle: seq<nat>)
    : (r: Result<seq<string>>)
    requires IsShuffle(shuffle, |Candidates(blobs)|)
    ensures !hasTableClient ==> r == Failure(OutsideContext)
    ensures hasTableClient && gameCount <= 0 ==> r == Failure(NonPositiveCount)
    ensures r.Success? <==> hasTableClient && 0 < gameCount <= |Candidates(blobs)|
    ensures r.Success? ==> |r.value| == gameCount
    ensures r.Success? ==>
              forall i :: 0 <= i < gameCount ==> r.value[i] in blobs && !Contains(r.value[i], ".png")
    ensures r.Success? && NoDuplicates(blobs) ==> NoDuplicates(r.value)
    ensures r.Success? ==> forall i :: 0 <= i < gameCount ==> r.value[i] == Candidates(blobs)[shuffle[i]]
  {
    if !hasTableClient then Failure(OutsideContext)
    else if gameCount <= 0 then Failure(NonPositiveCount)
    else
      var pool := Candidates(blobs);
      var picked := Sample(pool, gameCount, shuffle);
      if picked.Success? && NoDuplicates(blobs) then
        CandidatesNoDuplicates(blobs);
        picked
      else
        picked
  }
}

=== FILE: strings.dfy ===
/** The handful of Python string operations the bookkeeping relies on:
    `str.split`, `str.join`, `str.strip`, `in`, `str.replace(".png", "")`,
    `int()` on decimal text and `f"{n}"` on a natural number. */
module Strings {
  import opened Common

  /** `sub in s`. */
  predicate Contains(s: string, sub: string)
    decreases |s|
  {
    sub <= s || (|s| > 0 && Contains(s[1..], sub))
  }

  lemma ContainsPrefix(p: string, s: string)
    ensures Contains(p + s, p)
  {
    assert p <= p + s;
  }

  /** Position of the first `c` in `s`. */
  function IndexOf(s: string, c: char): (i: nat)
    requires c in s
    ensures i < |s| && s[i] == c && c !in s[..i]
  {
    if s[0] == c then 0
    else
      var k := IndexOf(s[1..], c);
      assert s[..k + 1] == [s[0]] + s[1..][..k];
      k + 1
  }

  /** `s.split(c)`: the segments between occurrences of `c`; there is
      always one more segment than there are separators. */
  function Split(s: string, c: char): (parts: seq<string>)
    ensures |parts| >= 1
    ensures forall i :: 0 <= i < |parts| ==> c !in parts[i]
    ensures c in s <==> |parts| >= 2
    decreases |s|
  {
    if c in s then
      var i := IndexOf(s, c);
      [s[..i]] + Split(s[i + 1..], c)
    else
      [s]
  }

  /** `c.join(parts)`. */
  function Join(parts: seq<string>, c: char): string
  {
    if |parts| == 0 then ""
    else if |parts| == 1 then parts[0]
    else parts[0] + [c] + Join(parts[1..], c)
  }

  /** Splitting a joined list gives the list back, provided no element
      contains the separator. */
  lemma {:induction false} SplitJoin(parts: seq<string>, c: char)
    requires |parts| >= 1
    requires forall i :: 0 <= i < |parts| ==> c !in parts[i]
    ensures Split(Join(parts, c), c) == parts
    decreases |parts|
  {
    if |parts| == 1 {
      assert Join(parts, c) == parts[0];
    } else {
      var rest := Join(parts[1..], c);
      var s := parts[0] + [c] + rest;
      assert Join(parts, c) == s;
      assert s[|parts[0]|] == c;
      assert s[..|parts[0]|] == parts[0];
      IndexOfAfterPrefix(parts[0], c, rest);
      assert s[|parts[0]| + 1..] == rest;
      SplitJoin(parts[1..], c);
      assert parts == [parts[0]] + parts[1..];
    }
  }

  lemma {:induction false} IndexOfAfterPrefix(p: string, c: char, rest: string)
    requires c !in p
    ensures c in p + [c] + rest && IndexOf(p + [c] + rest, c) == |p|
    decreases |p|
  {
    var s := p + [c] + rest;
    assert s[|p|] == c;
    if |p| > 0 {
      assert p[0] in p;
      assert s[1..] == p[1..] + [c] + rest;
      IndexOfAfterPrefix(p[1..], c, rest);
    }
  }

  /** Joining the segments of a split gives the text back. */
  lemma {:induction false} JoinSplit(s: string, c: char)
    ensures Join(Split(s, c), c) == s
    decreases |s|
  {
    if c in s {
      var i := IndexOf(s, c);
      var tail := Split(s[i + 1..], c);
      JoinSplit(s[i + 1..], c);
      assert Split(s, c) == [s[..i]] + tail;
      assert Join(Split(s, c), c) == s[..i] + [c] + Join(tail, c);
      assert s == s[..i] + [c] + s[i + 1..];
    }
  }

  /** The last element of a non-empty sequence (Python's `xs[-1]`). */
  function Last<T>(xs: seq<T>): T
    requires |xs| > 0
  {
    xs[|xs| - 1]
  }

  /** `s.lstrip(c)`. */
  function LStrip(s: string, c: char): (r: string)
    ensures |r| <= |s| && r == s[|s| - |r|..]
    ensures AllOf(s[..|s| - |r|], c)
    ensures |r| == 0 || r[0] != c
    decreases |s|
  {
    if |s| > 0 && s[0] == c then
      var r := LStrip(s[1..], c);
      assert s[..|s| - |r|] == [c] + s[1..][..|s| - 1 - |r|];
      r
    else s
  }

  /** `s.rstrip(c)`. */
  function RStrip(s: string, c: char): (r: string)
    ensures |r| <= |s| && r == s[..|r|]
    ensures AllOf(s[|r|..], c)
    ensures |r| == 0 || r[|r| - 1] != c
    decreases |s|
  {
    if |s| > 0 && s[|s| - 1] == c then
      var r := RStrip(s[..|s| - 1], c);
      assert s[|r|..] == s[..|s| - 1][|r|..] + [c];
      r
    else s
  }

  /** `s.strip(c)`: the text with every leading and trailing `c` removed. */
  function Strip(s: string, c: char): (r: string)
    ensures |r| <= |s|
    ensures |r| == 0 || (r[0] != c && r[|r| - 1] != c)
    ensures c !in s ==> r == s
  {
    if c !in s then StripUnchanged(s, c); s else RStrip(LStrip(s, c), c)
  }

  /** Only the ends are cut: the stripped text is a slice of `s`, and
      everything cut off on either side is `c`. Together with Strip's own
      contract (the slice neither starts nor ends with `c`) this fixes the
      result; on a text made only of `c` it is empty. */
  lemma StripCutsOnlyEnds(s: string, c: char)
    ensures exists i :: StrippedAt(s, c, Strip(s, c), i)
  {
    if c !in s {
      assert Strip(s, c) == s && s[0..|s|] == s;
      assert |s[..0]| == 0 && |s[|s|..]| == 0;
      assert StrippedAt(s, c, Strip(s, c), 0);
    } else {
      assert Strip(s, c) == RStrip(LStrip(s, c), c);
      StripBothEnds(s, c);
      assert StrippedAt(s, c, Strip(s, c), |s| - |LStrip(s, c)|);
    }
  }

  lemma StripBothEnds(s: string, c: char)
    ensures StrippedAt(s, c, RStrip(LStrip(s, c), c), |s| - |LStrip(s, c)|)
  {
    var l := LStrip(s, c);
    StripSlice(s, l, RStrip(l, c), c);
  }

  /** Cutting a run of `c` off the front of `s`, then a run off the back
      of what is left, leaves a slice with only `c` outside it. */
  lemma StripSlice(s: string, l: string, r: string, c: char)
    requires |l| <= |s| && l == s[|s| - |l|..]
    requires AllOf(s[..|s| - |l|], c)
    requires |r| <= |l| && r == l[..|r|]
    requires AllOf(l[|r|..], c)
    ensures StrippedAt(s, c, r, |s| - |l|)
  {
    var i := |s| - |l|;
    assert s[i + |r|..] == l[|r|..];
  }

  /** `r` is `s[i..i + |r|]` and every character of `s` outside that
      slice is `c`. */
  predicate StrippedAt(s: string, c: char, r: string, i: nat) {
    && i + |r| <= |s|
    && r == s[i..i + |r|]
    && AllOf(s[..i], c)
    && AllOf(s[i + |r|..], c)
  }

  /** Every character of `t` is `c`. */
  predicate AllOf(t: string, c: char) {
    forall k :: 0 <= k < |t| ==> t[k] == c
  }

  lemma StripUnchanged(s: string, c: char)
    requires c !in s
    ensures RStrip(LStrip(s, c), c) == s
  {
    if |s| > 0 {
      assert s[0] in s;
      assert s[|s| - 1] in s;
    }
  }

  /** `s.replace(".png", "")`: every non-overlapping occurrence, scanning
      from the left, is removed. */
  function RemovePng(s: string): (r: string)
    ensures |r| <= |s|
    ensures !Contains(s, ".png") ==> r == s
    decreases |s|
  {
    if |s| == 0 then s
    else if ".png" <= s then RemovePng(s[4..])
    else [s[0]] + RemovePng(s[1..])
  }

  /** A screenshot name `<name>.png`, where the name itself holds no
      ".png", loses exactly its extension. */
  lemma {:induction false} RemovePngSuffix(name: string)
    requires !Contains(name, ".png")
    ensures RemovePng(name + ".png") == name
    decreases |name|
  {
    var s := name + ".png";
    if |name| == 0 {
      assert s == ".png";
      assert s[4..] == "";
    } else {
      assert !(".png" <= name);
      assert !(".png" <= s) by {
        if |name| >= 4 {
          assert s[..4] == name[..4];
        } else if |name| == 1 {
          assert s[1] == '.';
        } else if |name| == 2 {
          assert s[2] == '.';
        } else {
          assert s[3] == '.';
        }
      }
      assert s[1..] == name[1..] + ".png";
      RemovePngSuffix(name[1..]);
    }
  }

  predicate IsDigit(ch: char) {
    '0' <= ch <= '9'
  }

  predicate AllDigits(s: string) {
    forall i :: 0 <= i < |s| ==> IsDigit(s[i])
  }

  function DigitChar(d: nat): (ch: char)
    requires d < 10
    ensures IsDigit(ch)
  {
    ('0' as int + d) as char
  }

  function DigitValue(ch: char): (d: nat)
    requires IsDigit(ch)
    ensures d < 10
  {
    ch as int - '0' as int
  }

  /** Decimal value of a string of digits (leading zeros allowed, as for
      Python's `int`). */
  function DigitsValue(s: string): nat
    requires AllDigits(s)
  {
    if |s| == 0 then 0 else DigitsValue(s[..|s| - 1]) * 10 + DigitValue(s[|s| - 1])
  }

  /** `str(n)` for a natural number: decimal digits, no leading zero. */
  function NatToString(n: nat): (s: string)
    ensures |s| >= 1 && AllDigits(s)
  {
    if n < 10 then [DigitChar(n)] else NatToString(n / 10) + [DigitChar(n % 10)]
  }

  /** `str(n)` for any integer. */
  function IntToString(n: int): string {
    if n >= 0 then NatToString(n) else "-" + NatToString(-n)
  }

  /** `int(s)` restricted to what the model accepts: a non-empty string of
      decimal digits. Anything else is the `ValueError` Python raises. */
  function ParseNat(s: string): (r: Option<nat>)
    ensures r.Some? <==> |s| > 0 && AllDigits(s)
    ensures r.Some? ==> r.value == DigitsValue(s)
  {
    if |s| > 0 && AllDigits(s) then Some(DigitsValue(s)) else None
  }

  /** Printing a number and parsing it back gives the number. */
  lemma {:induction false} ParseNatToString(n: nat)
    ensures ParseNat(NatToString(n)) == Some(n)
  {
    DigitsValueToString(n);
  }

  lemma {:induction false} DigitsValueToString(n: nat)
    ensures DigitsValue(NatToString(n)) == n
  {
    var s := NatToString(n);
    if n < 10 {
      assert s[..0] == [];
    } else {
      DigitsValueToString(n / 10);
      assert s[..|s| - 1] == NatToString(n / 10);
    }
  }

  /** Distinct numbers print differently. */
  lemma NatToStringInjective(m: nat, n: nat)
    requires m != n
    ensures NatToString(m) != NatToString(n)
  {
    ParseNatToString(m);
    ParseNatToString(n);
  }
}

=== FILE: turn.dfy ===
/** The turn record shared by all turn kinds: identifiers fixed at creation,
    the HIT id attached once a HIT exists, and the result fields filled in
    after a worker's assignment has been processed. */
module Turns {
  import opened Common

  /** Attributes of a turn. `hitId` is None until a HIT is created for it;
      the result attributes are loosely typed cells (None, a string, or a
      boolean for `isQualified`). */
  datatype Turn = Turn(
    gameId: string,
    turnType: string,
    initializedStructureId: Value,
    hitId: Option<string>,
    workerId: Value,
    isQualified: Value,
    resultBlobPath: Value,
    inputInstructions: Value)

  /** A turn that is not linked to a HIT and carries no result yet. */
  predicate IsOpen(t: Turn) {
    && t.hitId.None?
    && t.workerId == Null
    && t.isQualified == Null
    && t.resultBlobPath == Null
    && t.inputInstructions == Null
  }

  /** `Turn.__init__`: the identifiers are kept as passed, and the turn is
      open. */
  function NewTurn(gameId: string, turnType: string, initializedStructureId: Value): (t: Turn)
    ensures t.gameId == gameId && t.turnType == turnType
    ensures t.initializedStructureId == initializedStructureId
    ensures IsOpen(t)
  {
    Turn(gameId, turnType, initializedStructureId, None, Null, Null, Null, Null)
  }

  /** `set_hit_id`: links the turn to a HIT and leaves every other
      attribute alone. */
  function SetHitId(t: Turn, hitId: string): (t': Turn)
    ensures t'.hitId == Some(hitId)
    ensures t'.(hitId := t.hitId) == t
  {
    t.(hitId := Some(hitId))
  }

  /** There is no set-once guard: a second `set_hit_id` replaces the first
      id, and the turn looks as if only the second call had happened. */
  lemma SetHitIdOverwrites(t: Turn, first: string, second: string)
    ensures SetHitId(SetHitId(t, first), second) == SetHitId(t, second)
    ensures first != second ==> SetHitId(SetHitId(t, first), second).hitId != Some(first)
  {
  }
}
